=== FILE: README.md ===
# tide-fluent-routes, modelled in Dafny

tide-fluent-routes is a fluent builder for the routes of a `tide` web
application. Starting from `root()`, a program adds path segments with
`at(path, |r| ...)`, scopes middleware over a subtree with
`with(middleware, |r| ...)`, registers endpoints per HTTP method (`method`,
the nine verb shortcuts `get`, `post`, ..., and the catch-all `all`), and
names routes (`name`). The finished tree is flattened by `build` into one
route descriptor per endpoint. Each descriptor carries the path joined from
the root and the middleware collected on the way down. `names` and
`reverse_router` turn the named nodes into a table from route name to path.

The model has one module per source file:

- `PathJoin` (`path.dfy`) covers `src/path.rs`. This is the `Path` newtype
  and how a segment is joined onto it.
- `ReverseRouting` (`reverse_router.dfy`) covers `src/reverse_router.rs`.
  The reverse router is a class whose name-to-path map `insert` updates in
  place.
- `RouteSegments` (`routesegment.dfy`) covers `src/routesegment.rs`:
  - `root` and the `RouteBuilder` operations on `Result<RouteSegment>`;
  - `build` and `names`;
  - `reverse_router`, a loop over the names that fills a `ReverseRouter`.
- `RouteBuilderExt` (`routebuilder.dfy`) covers `src/routebuilder.rs`, the
  nine verb shortcuts. It also works two route trees through to their
  flattened form: the tree of `examples/route.rs` and a middleware-scoping
  tree.
- `Prototype` (`prototype.dfy`) covers the earlier builder kept in
  `src/lib.rs`. There, `build` emits only a node's own endpoints.
- Supporting modules:
  - `Http` (`http.dfy`) holds the nine HTTP verbs.
  - `MapOrder` (`map_order.dfy`) lists a map's entries in a fixed key order.
  - `Wrappers` (`wrappers.dfy`) holds `Option`.

Handlers, middleware and the crate's error type are type parameters, and the
model never invokes them. The contracts of the builder operations hold for
every handler, every middleware and every closure. A few lemmas narrow this:

- `RouteSegments.AtKeepsScoped` and `WithKeepsScoped` ask the closure to
  keep the tree scoped.
- The worked trees fix their closures.

Two points of the path join follow the code rather than what a reader might expect:

- `Path::prepend` is modelled as written. The join that the tests and
  `RouteSegment::at` rely on is the separate `Append`; see "Findings".
- Nothing in the crate collapses repeated slashes inside a segment. The code
  trims slashes only at the seam between two pieces, so `a` joined with
  `x//y` is `a/x//y` (`PathJoin.InnerSlashesKept`).

## Model

| member | source | states |
|---|---|---|
| PathJoin.New | src/path.rs:6-8 | a new path holds the empty string |
| PathJoin.ToString | src/path.rs:22-26 | `to_string` gives back the stored string unchanged |
| PathJoin.Prefix | src/routesegment.rs:13 | the path `root()` starts from holds exactly `s`; `Path::prefix` is missing from src/path.rs, so this is the assumed reading (see "Left out") |
| PathJoin.TrimStart | src/path.rs:16 | `trim_start_matches('/')`: the result is no longer than the input and has no leading slash |
| PathJoin.TrimEnd | src/path.rs:14 | `trim_end_matches('/')`: the result is no longer than the input and has no trailing slash |
| PathJoin.TrimStartMeaning | src/path.rs:16 | `trim_start_matches('/')` keeps a suffix of the string and drops slashes only; the result has no leading slash |
| PathJoin.TrimEndMeaning | src/path.rs:14 | `trim_end_matches('/')` keeps a prefix of the string and drops slashes only; the result has no trailing slash |
| PathJoin.Prepend | src/path.rs:10-19 | on an empty path, the segment verbatim; otherwise the segment trimmed at its end, one `/`, then the old path trimmed at its start |
| PathJoin.PrependIsSwappedAppend | src/path.rs:14-16 | for a non-empty path and segment, `prepend` is `Append` with its two arguments swapped |
| PathJoin.Append | src/routesegment.rs:95 | the join `at` calls, reconstructed because `Path::append` is missing from src/path.rs (see "Left out"): on an empty path, the segment verbatim; otherwise the path trimmed at its end, one `/`, then the segment trimmed at its start |
| PathJoin.AppendSeam | src/path.rs:13-17 | on a non-empty path, the joined string has a `/` at the seam, and no `/` on either side of it |
| PathJoin.AppendPlain | src/path.rs:14-16 | a non-empty path with no trailing slash joined with a segment with no leading slash is the two with exactly one `/` between them |
| PathJoin.AppendToRoot | src/routesegment.rs:94-96 | any segment joined under the root path `/` is `/` followed by the segment with its leading slashes dropped |
| PathJoin.AppendKeepsLeadingSlash | src/path.rs:44-49 | a leading slash of the path, or of the first segment joined onto an empty path, survives a join |
| PathJoin.AppendKeepsTrailingSlash | src/path.rs:51-56 | a trailing slash of the last segment survives the join |
| PathJoin.AppendAllKeepsLeadingSlash | src/path.rs:44-49 | a leading slash survives any number of joins |
| PathJoin.AppendAllKeepsTrailingSlash | src/path.rs:51-56 | a trailing slash on the last of several segments survives |
| PathJoin.AppendAssociative | src/routesegment.rs:94-96 | joining `b` and then `c` equals joining the join of `b` and `c`, so nested `at` calls and one `at` with the combined segment give the same path |
| PathJoin.AppendAll | src/path.rs:33-56 | joining segments in turn, as the tests chain their calls: a non-empty path stays non-empty, and a leading slash of the path survives |
| PathJoin.PrependAll | src/path.rs:33-56 | chaining the literal `prepend` in turn: a non-empty path stays non-empty |
| PathJoin.SlashesBetweenSegments | src/path.rs:33-42 | joining `tst`, `tst`, `/tst/`, `tst///`, `////tst` gives `tst/tst/tst/tst/tst` |
| PathJoin.PreservePrefixSlash | src/path.rs:44-49 | `/tst` then `tst` gives `/tst/tst` |
| PathJoin.PreserveTrailingSlash | src/path.rs:51-56 | `tst` then `tst/` gives `tst/tst/` |
| PathJoin.InnerSlashesKept | src/path.rs:14-16 | slashes inside a segment are kept: `a` joined with `x//y` is `a/x//y` |
| PathJoin.PrependFailsSlashesTest | src/path.rs:33-42 | `prepend` as written turns the test's five segments into `////tst/tst/tst/tst/tst` |
| PathJoin.PrependDropsPrefixSlash | src/path.rs:44-49 | `prepend` as written turns `/tst` then `tst` into `tst/tst` |
| PathJoin.PrependDropsTrailingSlash | src/path.rs:51-56 | `prepend` as written turns `tst` then `tst/` into `tst/tst` |
| ReverseRouting.ReverseRouter.constructor | src/reverse_router.rs:23-27 | a new reverse router holds no routes |
| ReverseRouting.ReverseRouter.Insert | src/reverse_router.rs:13-15 | afterwards `name` maps to `route`, every other name keeps its route or its absence, and the names are the old ones plus `name` |
| ReverseRouting.ReverseRouter.Resolve | src/reverse_router.rs:18-20 | gives the route stored under `name`; only a name present may be asked for, and nothing changes |
| ReverseRouting.InsertThenResolve | src/reverse_router.rs:13-20 | resolving a name just inserted gives its route; resolving another name gives what it had before |
| MapOrder.Entries | src/routesegment.rs:75-78 | iterating a map in a given key order: each entry emitted is one of the map's, every listed key of the map is emitted, and no key twice when the order lists each key once |
| MapOrder.EntriesCount | src/routesegment.rs:75-78 | when the order lists each key once, the number of entries emitted is the number of the map's keys that are listed |
| MapOrder.EntriesComplete | src/routesegment.rs:75-78 | when the order lists every key of the map exactly once, as many entries are emitted as the map has |
| RouteSegments.Root | src/routesegment.rs:11-19 | `root()` succeeds with path `/`, no middleware, no name, no branches and no endpoints |
| RouteSegments.Child | src/routesegment.rs:94-99 | the node handed to a closure has the given path and middleware, no name, no branches and no endpoints |
| RouteSegments.AddBranch | src/routesegment.rs:94-101 | a successful closure result becomes the last branch and nothing else changes; a failed one is the result |
| RouteSegments.At | src/routesegment.rs:91-105 | a failure passes through unchanged; otherwise the closure gets a child at the joined path with the parent's middleware, and its result is added as the last branch, or its failure is the result |
| RouteSegments.With | src/routesegment.rs:107-124 | like `At`, but the child keeps the parent's path and its middleware is the parent's plus the new one |
| RouteSegments.Method | src/routesegment.rs:126-136 | registers the endpoint under `Some(verb)`: every other key keeps its handler or its absence, nothing else changes, and a failure passes through |
| RouteSegments.All | src/routesegment.rs:138-146 | the same as `Method` for the catch-all key `None` |
| RouteSegments.Name | src/routesegment.rs:148-159 | names an unnamed segment and changes nothing else; on a named segment it ends with the conflict carrying the existing name; a failure passes through |
| RouteSegments.MethodReplaces | src/routesegment.rs:129-131 | registering the same verb twice is the same as registering only the second endpoint |
| RouteSegments.VerbKeepsCatchAll | src/routesegment.rs:126-136 | registering a verb leaves the catch-all as it was |
| RouteSegments.NameAtMostOnce | src/routesegment.rs:151-153 | naming twice never succeeds; on an unnamed segment it fails with the first name |
| RouteSegments.Local | src/routesegment.rs:75-82 | one descriptor per endpoint of the node, each with the node's path and middleware and the handler stored under its key; every key appears, no key twice |
| RouteSegments.Build | src/routesegment.rs:71-87 | every descriptor `build` yields is an endpoint route, never a name entry (its length is `BuildLength`, its order `AddsBranchBuild`) |
| RouteSegments.BuildBranches | src/routesegment.rs:84 | every descriptor the branches yield is an endpoint route |
| RouteSegments.BuildLength | src/routesegment.rs:71-87 | `build` yields exactly one descriptor per endpoint in the whole tree |
| RouteSegments.BuildBranchesLength | src/routesegment.rs:84 | flattening the branches yields one descriptor per endpoint below them |
| RouteSegments.BuildBranchesSnoc | src/routesegment.rs:84-86 | a branch added last contributes its descriptors last |
| RouteSegments.AddsBranchBuild | src/routesegment.rs:84-86 | adding a branch keeps the earlier descriptors and appends the branch's |
| RouteSegments.AtBuild | src/routesegment.rs:91-101 | `build` after `at` is the old `build` followed by the `build` of what the closure returned |
| RouteSegments.WithBuild | src/routesegment.rs:107-120 | `build` after `with` is the old `build` followed by the `build` of what the closure returned |
| RouteSegments.RegistersKeys | src/routesegment.rs:129-131 | registering adds the key to the node's keys and nothing else |
| RouteSegments.RegistersBuildLength | src/routesegment.rs:129-131 | registering adds one descriptor, or none when it replaces a handler for the same key |
| RouteSegments.ScopedBuild | src/routesegment.rs:78-84 | in a `Scoped` tree (each branch's middleware chain extends its parent's), the root's middleware is a prefix of every descriptor's middleware; `at` and `with` keep a tree `Scoped` when the closure builds on the child it is handed (`AtKeepsScoped`, `WithKeepsScoped`) |
| RouteSegments.ScopedBuildBranches | src/routesegment.rs:84 | every descriptor below branches that extend `outer` has middleware starting with `outer` |
| RouteSegments.WithKeepsScoped | src/routesegment.rs:110-113 | `with` keeps that property of the tree when the closure does |
| RouteSegments.AtKeepsScoped | src/routesegment.rs:94-96 | `at` keeps that property of the tree when the closure does |
| RouteSegments.Names | src/routesegment.rs:35-51 | one name descriptor per named node, with no middleware; a named node's own name comes first |
| RouteSegments.NamesOf | src/routesegment.rs:48 | the names of branches are name descriptors with no middleware |
| RouteSegments.NamesLength | src/routesegment.rs:35-51 | `names` yields exactly one entry per named node in the tree |
| RouteSegments.NamesOfLength | src/routesegment.rs:48 | the branches yield one entry per named node below them |
| RouteSegments.NameIndex | src/routesegment.rs:57-66 | the table `reverse_router` fills: every entry pairs a name with the path of some descriptor carrying that name |
| RouteSegments.NameIndexHas | src/routesegment.rs:57-66 | a name ends up in the table if and only if some descriptor carries it |
| RouteSegments.NameIndexLast | src/routesegment.rs:57-66 | the table maps a name to the path of the last descriptor carrying it |
| RouteSegments.ReverseRouterOf | src/routesegment.rs:54-69 | the new router holds exactly the table built by inserting the tree's names in pre-order |
| RouteSegments.ResolveOwnName | src/routesegment.rs:54-69 | a node whose name does not recur below it resolves to its own path |
| RouteBuilderExt.Get | src/routebuilder.rs:29-31 | `get(e)` is `method(Get, e)`: it registers `e` under GET only |
| RouteBuilderExt.Head | src/routebuilder.rs:34-36 | `head(e)` is `method(Head, e)` |
| RouteBuilderExt.Put | src/routebuilder.rs:39-41 | `put(e)` is `method(Put, e)` |
| RouteBuilderExt.Post | src/routebuilder.rs:44-46 | `post(e)` is `method(Post, e)` |
| RouteBuilderExt.Delete | src/routebuilder.rs:49-51 | `delete(e)` is `method(Delete, e)` |
| RouteBuilderExt.Options | src/routebuilder.rs:54-56 | `options(e)` is `method(Options, e)` |
| RouteBuilderExt.Connect | src/routebuilder.rs:59-61 | `connect(e)` is `method(Connect, e)` |
| RouteBuilderExt.Patch | src/routebuilder.rs:64-66 | `patch(e)` is `method(Patch, e)` |
| RouteBuilderExt.Trace | src/routebuilder.rs:69-71 | `trace(e)` is `method(Trace, e)` |
| RouteBuilderExt.ShortcutsKeepCatchAll | src/routebuilder.rs:16-20 | none of the nine shortcuts changes the catch-all entry, while `all` stores its endpoint there |
| RouteBuilderExt.RouteExample | examples/route.rs:11-15 | the example tree flattens to six routes, two at each of `/`, `/api/v1`, `/api/v2`, one GET and one POST each, in branch order, none with middleware |
| RouteBuilderExt.MiddlewareScopeExample | src/routesegment.rs:107-120 | middleware is scoped: in `at("path", with(mw1, at("subpath", with(mw2, get)).get))` the route at `/path` carries `[mw1]` and the one at `/path/subpath` carries `[mw1, mw2]` |
| Prototype.Root | src/lib.rs:56-62 | the prototype root is tagged `Root`, with no branches and no endpoints |
| Prototype.Fresh | src/lib.rs:86-90 | the node handed to a closure carries its tag, with no branches and no endpoints |
| Prototype.AddBranch | src/lib.rs:85-92 | exactly one branch is added, last: what the closure made of a fresh node; earlier branches, endpoints and tag are unchanged |
| Prototype.At | src/lib.rs:76-78 | `add_branch` with a node tagged `Path(path)` |
| Prototype.With | src/lib.rs:81-83 | `add_branch` with a node tagged `Middleware(m)` |
| Prototype.Method | src/lib.rs:95-98 | the endpoint is stored under the verb, every other verb keeps its endpoint or its absence, the tag and the branches are unchanged |
| Prototype.MethodReplaces | src/lib.rs:95-98 | a second `method` for the same verb replaces the first |
| Prototype.Build | src/lib.rs:100-106 | one descriptor per local endpoint, each with an empty path, no middleware, and the endpoint stored under its verb |
| Prototype.BuildCovers | src/lib.rs:101-103 | every verb that has an endpoint appears in `build`, and no verb appears twice |
| Prototype.BuildIgnoresBranches | src/lib.rs:100-106 | `build` depends on the endpoints only, not on the tag or the branches |
| Prototype.MethodBuildLength | src/lib.rs:95-106 | `method` adds one descriptor to `build`, or none when it replaces one |
| Prototype.BuildAll | src/lib.rs:110 | the `flat_map` of local builds: every descriptor has an empty path and no middleware |
| Prototype.BuildBranchEndpoints | src/lib.rs:109-111 | every descriptor has an empty path and no middleware, so the branch paths are lost |
| Prototype.BuildAllLength | src/lib.rs:109-111 | `build_branch_endpoints` yields one descriptor per endpoint held directly by a branch |
| Prototype.BuildAllSnoc | src/lib.rs:109-111 | the branch added last contributes its descriptors last |
| Prototype.BuildAllShallow | src/lib.rs:109-111 | only the direct branches' own endpoints matter; grandchildren are never reached |
| Prototype.AddsBranchEndpoints | src/lib.rs:85-111 | after `add_branch`, `build` is unchanged and `build_branch_endpoints` gains the new branch's local descriptors at the end |
| Prototype.AtWithEndpoints | src/lib.rs:76-111 | the same for `at` and for `with` |
| Prototype.NestedRouteExample | src/lib.rs:164-182 | for the nested test route, `build` yields only the root's two endpoints and `build_branch_endpoints` four, all with an empty path and no middleware |

## Left out

- Router registration: `src/router.rs`, the `Router` trait and its `tide::Server` impl (src/lib.rs:36-53). They hand the descriptors to the foreign `tide` server API.
- `src/fs.rs`: every body is `todo!()`, and its purpose is file-system I/O.
- `src/util.rs` defines `BoxedEndpoint`, an async, type-erased endpoint wrapper. `ArcMiddleware` is imported from it at src/routesegment.rs:3, but its definition is not part of this model. Handlers and middleware are opaque type parameters here and are never invoked.
- Asynchronous execution and the `Send`/`Sync` bounds. The operations modelled are synchronous and single-threaded.
- The `tide::http::Method` type beyond the nine verbs the shortcuts use.
- The order of a node's own endpoints in `build`. The source iterates a `HashMap`, whose order is unspecified. The model emits them in one fixed verb order. Every contract about a single `build` is stated without reference to that order. `Prototype.BuildIgnoresBranches` and `Prototype.BuildAllShallow` do rely on it: they equate the builds of two nodes with equal endpoint maps, and two Rust `HashMap`s with equal contents may iterate in different orders.
- The panic of `name` on a named segment. It is the outcome `NameConflict(existing)`, which every later operation passes on, as unwinding would.
- The panic of `resolve` on an unknown name. It is the precondition `name in routes` on `ReverseRouting.ReverseRouter.Resolve`.
- The shapes of the closures in the two worked trees. They are fixed by preconditions that say what each closure returns for every input.
- `Path::prefix` and `Path::append`: src/routesegment.rs:13 and :95 call them, but src/path.rs does not define them, so the crate as given does not compile. The model assumes `Prefix(s)` is the path holding exactly `s`. It assumes `Append` is the join the tests at src/path.rs:33-56 expect, with the existing path first. The root path `/` and every path the tree composes rest on these two assumptions.
- Parameter substitution in reverse routing: the source has none.
- The tests at src/lib.rs:152-161 and 184-205 assert nothing: they hand routes to a stub router (src/lib.rs:134-150) whose methods are `todo!()`. Only the tree of the nested-route test is worked through, in `Prototype.NestedRouteExample`.
- `examples/route.rs` beyond its route tree. Starting the server and listening are network I/O.

## Findings

| source | as written | input that shows it | evidently intended | confidence | as-written member | corrected member |
|---|---|---|---|---|---|---|
| src/path.rs:10-19 | `prepend` keeps the new segment in front and the old path behind it, trimming the old path's leading slashes and the segment's trailing ones | `Path::new().prepend("/tst").prepend("tst")` gives `tst/tst`, while the test at src/path.rs:44-49 expects `/tst/tst`; the tests at src/path.rs:33-42 and 51-56 fail the same way | the old path first, then the segment (`append`, the join `at` calls at src/routesegment.rs:95): all three tests hold | not executed | PathJoin.PrependDropsPrefixSlash | PathJoin.PreservePrefixSlash |

=== FILE: http.dfy ===
/** The HTTP verbs the route builder can key an endpoint by (the nine verbs of
    `tide::http::Method` that the builder's shortcuts use). */
module Http {

  datatype Method = Get | Head | Put | Post | Delete | Options | Connect | Patch | Trace

  /** Every verb, each exactly once. */
  const AllMethods: seq<Method> := [Get, Head, Put, Post, Delete, Options, Connect, Patch, Trace]

  lemma AllMethodsListed(m: Method)
    ensures m in AllMethods
  {
  }

  lemma AllMethodsComplete()
    ensures forall m: Method :: m in AllMethods
  {
    forall m: Method ensures m in AllMethods {
      AllMethodsListed(m);
    }
  }

  lemma AllMethodsDistinct()
    ensures forall i, j :: 0 <= i < j < |AllMethods| ==> AllMethods[i] != AllMethods[j]
  {
  }
}

=== FILE: map_order.dfy ===
/** Iterating over a Rust `HashMap`. The source emits a node's endpoints by
    iterating its `HashMap`, whose order is unspecified; the model fixes one
    order (that of a given list of every possible key) and states everything
    about the emitted entries independently of that order: each entry is one
    of the map's, no key is emitted twice, and every key is emitted. */
module MapOrder {

  ghost predicate Distinct<K>(keys: seq<K>)
  {
    forall i, j :: 0 <= i < j < |keys| ==> keys[i] != keys[j]
  }

  /** The keys of a list of entries, in order. */
  function KeysOf<K, V>(es: seq<(K, V)>): (ks: seq<K>)
    ensures |ks| == |es|
    ensures forall i :: 0 <= i < |es| ==> ks[i] == es[i].0
  {
    seq(|es|, i requires 0 <= i < |es| => es[i].0)
  }

  /** The entries of `m` whose key occurs in `keys`, in the order of `keys`. */
  function Entries<K(==), V>(m: map<K, V>, keys: seq<K>): (r: seq<(K, V)>)
    ensures |r| <= |keys|
    ensures forall i :: 0 <= i < |r| ==> r[i].0 in m && r[i].0 in keys && r[i].1 == m[r[i].0]
    ensures forall k :: k in m && k in keys ==> k in KeysOf(r)
    ensures Distinct(keys) ==> Distinct(KeysOf(r))
  {
    if keys == [] then []
    else
      var rest := Entries(m, keys[1..]);
      assert forall k :: k in keys && k != keys[0] ==> k in keys[1..];
      if keys[0] in m then
        var r := [(keys[0], m[keys[0]])] + rest;
        assert KeysOf(r) == [keys[0]] + KeysOf(rest);
        r
      else rest
  }

  /** With distinct keys, exactly the keys of `m` that are listed are emitted. */
  lemma {:induction false} EntriesCount<K, V>(m: map<K, V>, keys: seq<K>)
    requires Distinct(keys)
    ensures |Entries(m, keys)| == |m.Keys * set k | k in keys|
  {
    if keys != [] {
      var rest := keys[1..];
      EntriesCount(m, rest);
      var listed := set k | k in keys;
      var restListed := set k | k in rest;
      assert listed == {keys[0]} + restListed;
      assert keys[0] !in restListed by {
        forall j | 0 <= j < |rest| ensures rest[j] != keys[0] {
          assert rest[j] == keys[j + 1];
        }
      }
      if keys[0] in m {
        assert m.Keys * listed == {keys[0]} + m.Keys * restListed;
      } else {
        assert m.Keys * listed == m.Keys * restListed;
      }
    }
  }

  /** When `keys` lists every possible key once, every entry of `m` is emitted
      exactly once. */
  lemma EntriesComplete<K, V>(m: map<K, V>, keys: seq<K>)
    requires Distinct(keys)
    requires forall k :: k in m ==> k in keys
    ensures |Entries(m, keys)| == |m|
  {
    EntriesCount(m, keys);
    assert m.Keys * (set k | k in keys) == m.Keys;
  }
}

=== FILE: path.dfy ===
/** Paths collected from route segments (src/path.rs). A `Path` is a string
    newtype that is never changed in place: joining a segment returns a new
    `Path`. The file holds the join as written there (`Prepend`) and the join
    its tests and its callers rely on (`Append`); the two differ, see the
    lemmas at the end of the module. */
module PathJoin {

  datatype Path = Path(s: string)

  predicate AllSlashes(s: string)
  {
    forall i :: 0 <= i < |s| ==> s[i] == '/'
  }

  predicate NoLeadingSlash(s: string)
  {
    s == [] || s[0] != '/'
  }

  predicate NoTrailingSlash(s: string)
  {
    s == [] || s[|s| - 1] != '/'
  }

  predicate StartsWithSlash(s: string)
  {
    s != [] && s[0] == '/'
  }

  predicate EndsWithSlash(s: string)
  {
    s != [] && s[|s| - 1] == '/'
  }

  /** `Path::new()`: the empty path. */
  function New(): (p: Path)
    ensures p.s == []
  {
    Path([])
  }

  /** `Path::prefix(s)`, called by the route tree for its root: a path that
      starts out as `s`. */
  function Prefix(s: string): (p: Path)
    ensures p.s == s
  {
    Path(s)
  }

  /** `to_string`: the collected path, unchanged. */
  function ToString(p: Path): (r: string)
    ensures r == p.s
  {
    p.s
  }

  /** `str::trim_start_matches('/')`: drops every leading slash and nothing
      else (see `TrimStartMeaning`). */
  function TrimStart(s: string): (r: string)
    ensures |r| <= |s| && NoLeadingSlash(r)
    decreases |s|
  {
    if s != [] && s[0] == '/' then TrimStart(s[1..]) else s
  }

  /** `str::trim_end_matches('/')`: drops every trailing slash and nothing
      else (see `TrimEndMeaning`). */
  function TrimEnd(s: string): (r: string)
    ensures |r| <= |s| && NoTrailingSlash(r)
    decreases |s|
  {
    if s != [] && s[|s| - 1] == '/' then TrimEnd(s[..|s| - 1]) else s
  }

  /** `TrimStart` keeps a suffix of its argument and what it drops is
      slashes only. */
  lemma {:induction false} TrimStartMeaning(s: string)
    ensures var n := |s| - |TrimStart(s)|;
      s == s[..n] + TrimStart(s) && AllSlashes(s[..n])
    decreases |s|
  {
    if s != [] && s[0] == '/' {
      TrimStartMeaning(s[1..]);
      var n := |s| - |TrimStart(s)|;
      assert s[1..][..n - 1] == s[1..n];
      assert s[..n] == [s[0]] + s[1..n];
    }
  }

  /** `TrimEnd` keeps a prefix of its argument and what it drops is slashes
      only. */
  lemma {:induction false} TrimEndMeaning(s: string)
    ensures var n := |TrimEnd(s)|;
      s == TrimEnd(s) + s[n..] && AllSlashes(s[n..])
    decreases |s|
  {
    if s != [] && s[|s| - 1] == '/' {
      TrimEndMeaning(s[..|s| - 1]);
      var n := |TrimEnd(s)|;
      assert s[..|s| - 1][n..] == s[n..|s| - 1];
      assert s[n..] == s[n..|s| - 1] + [s[|s| - 1]];
    }
  }

  /** A segment made only of slashes trims to nothing from the start. */
  lemma {:induction false} TrimStartAllSlashes(s: string)
    requires AllSlashes(s)
    ensures TrimStart(s) == []
    decreases |s|
  {
    if s != [] {
      TrimStartAllSlashes(s[1..]);
    }
  }

  /** A segment made only of slashes trims to nothing from the end. */
  lemma {:induction false} TrimEndAllSlashes(s: string)
    requires AllSlashes(s)
    ensures TrimEnd(s) == []
    decreases |s|
  {
    if s != [] {
      TrimEndAllSlashes(s[..|s| - 1]);
    }
  }

  /** Trimming `core + slashes` from the end leaves `core`. */
  lemma TrimEndOf(core: string, slashes: string)
    requires NoTrailingSlash(core) && AllSlashes(slashes)
    ensures TrimEnd(core + slashes) == core
  {
    TrimEndSlashes(core, slashes);
    TrimEndNoop(core);
  }

  /** Trimming `slashes + core` from the start leaves `core`. */
  lemma TrimStartOf(slashes: string, core: string)
    requires AllSlashes(slashes) && NoLeadingSlash(core)
    ensures TrimStart(slashes + core) == core
  {
    TrimStartSlashes(slashes, core);
    TrimStartNoop(core);
  }

  /** A path with no leading slash is left as it is. */
  lemma TrimStartNoop(s: string)
    requires NoLeadingSlash(s)
    ensures TrimStart(s) == s
  {
  }

  /** A path with no trailing slash is left as it is. */
  lemma TrimEndNoop(s: string)
    requires NoTrailingSlash(s)
    ensures TrimEnd(s) == s
  {
  }

  /** `Path::prepend`, as its body is written: on an empty path the segment
      verbatim, otherwise the SEGMENT without its trailing slashes, one slash,
      and the path without its leading slashes. */
  function Prepend(p: Path, segment: string): (r: Path)
    ensures p.s == [] ==> r.s == segment
    ensures p.s != [] ==> r.s == TrimEnd(segment) + "/" + TrimStart(p.s)
  {
    if p.s == [] then Path(segment)
    else Path(TrimEnd(segment) + "/" + TrimStart(p.s))
  }

  /** `Path::append`, the join its tests and the route tree rely on: on an
      empty path the segment verbatim, otherwise the PATH without its trailing
      slashes, one slash, and the segment without its leading slashes. */
  function Append(p: Path, segment: string): (r: Path)
    ensures p.s == [] ==> r.s == segment
    ensures p.s != [] ==> r.s == TrimEnd(p.s) + "/" + TrimStart(segment)
  {
    if p.s == [] then Path(segment)
    else Path(TrimEnd(p.s) + "/" + TrimStart(segment))
  }

  /** Joining several segments in turn, as `Path::new().append(a).append(b)...`. */
  function AppendAll(p: Path, segments: seq<string>): (r: Path)
    ensures p.s != [] ==> r.s != []
    ensures StartsWithSlash(p.s) ==> StartsWithSlash(r.s)
    decreases |segments|
  {
    if segments == [] then p
    else if StartsWithSlash(p.s) then
      AppendKeepsLeadingSlash(p, segments[0]);
      AppendAll(Append(p, segments[0]), segments[1..])
    else AppendAll(Append(p, segments[0]), segments[1..])
  }

  /** Joining several segments in turn with the literal `prepend`. */
  function PrependAll(p: Path, segments: seq<string>): (r: Path)
    ensures p.s != [] ==> r.s != []
    decreases |segments|
  {
    if segments == [] then p else PrependAll(Prepend(p, segments[0]), segments[1..])
  }

  /** Joining onto the root path "/" gives "/" followed by the segment with
      its leading slashes dropped. */
  lemma AppendToRoot(segment: string)
    ensures Append(Path("/"), segment).s == "/" + TrimStart(segment)
  {
    TrimEndAllSlashes("/");
  }

  /** Joining a path that does not end in '/' with a segment that does not
      start with one puts exactly one '/' between them. */
  lemma AppendPlain(p: Path, segment: string)
    requires p.s != [] && NoLeadingSlash(segment)
    ensures Append(p, segment).s == TrimEnd(p.s) + "/" + segment
    ensures NoTrailingSlash(p.s) ==> Append(p, segment).s == p.s + "/" + segment
  {
    TrimStartNoop(segment);
    if NoTrailingSlash(p.s) {
      TrimEndNoop(p.s);
    }
  }

  /** On a non-empty path the seam is exactly one slash: the character
      before it and the character after it are not slashes. */
  lemma AppendSeam(p: Path, segment: string)
    requires p.s != []
    ensures var r, i := Append(p, segment).s, |TrimEnd(p.s)|;
      i < |r| && r[i] == '/' && (i > 0 ==> r[i - 1] != '/') && (i + 1 < |r| ==> r[i + 1] != '/')
  {
    var e, b := TrimEnd(p.s), TrimStart(segment);
    var r := Append(p, segment).s;
    assert r == e + "/" + b;
    assert |e| > 0 ==> r[|e| - 1] == e[|e| - 1];
    assert |e| + 1 < |r| ==> r[|e| + 1] == b[0];
  }

  /** A leading slash on the path survives a join. */
  lemma AppendKeepsLeadingSlash(p: Path, segment: string)
    requires StartsWithSlash(p.s) || (p.s == [] && StartsWithSlash(segment))
    ensures StartsWithSlash(Append(p, segment).s)
  {
    if p.s != [] {
      TrimEndMeaning(p.s);
      var e := TrimEnd(p.s);
      if e != [] {
        assert e[0] == p.s[0];
      }
    }
  }

  /** A trailing slash on the joined segment survives the join. */
  lemma AppendKeepsTrailingSlash(p: Path, segment: string)
    requires EndsWithSlash(segment)
    ensures EndsWithSlash(Append(p, segment).s)
  {
    if p.s != [] {
      TrimStartMeaning(segment);
      var b := TrimStart(segment);
      if b != [] {
        assert b[|b| - 1] == segment[|segment| - 1];
      }
    }
  }

  /** `TrimEnd` of `u + v` when `v` holds a character other than a slash. */
  lemma {:induction false} TrimEndConcat(u: string, v: string)
    requires !AllSlashes(v)
    ensures TrimEnd(u + v) == u + TrimEnd(v)
    decreases |v|
  {
    var w := u + v;
    if v[|v| - 1] == '/' {
      var v' := v[..|v| - 1];
      assert w[..|w| - 1] == u + v';
      assert !AllSlashes(v') by {
        var i :| 0 <= i < |v| && v[i] != '/';
        assert v'[i] == v[i];
      }
      TrimEndConcat(u, v');
    }
  }

  /** `TrimEnd` of `u + v` when `v` is only slashes. */
  lemma {:induction false} TrimEndSlashes(u: string, v: string)
    requires AllSlashes(v)
    ensures TrimEnd(u + v) == TrimEnd(u)
    decreases |v|
  {
    if v == [] {
      assert u + v == u;
    } else {
      var w := u + v;
      assert w[|w| - 1] == v[|v| - 1];
      assert w[..|w| - 1] == u + v[..|v| - 1];
      TrimEndSlashes(u, v[..|v| - 1]);
    }
  }

  /** `TrimStart` of `u + v` when `u` holds a character other than a slash. */
  lemma {:induction false} TrimStartConcat(u: string, v: string)
    requires !AllSlashes(u)
    ensures TrimStart(u + v) == TrimStart(u) + v
    decreases |u|
  {
    var w := u + v;
    if u[0] == '/' {
      assert w[1..] == u[1..] + v;
      assert !AllSlashes(u[1..]) by {
        var i :| 0 <= i < |u| && u[i] != '/';
        assert u[1..][i - 1] == u[i];
      }
      TrimStartConcat(u[1..], v);
    }
  }

  /** `TrimStart` of `u + v` when `u` is only slashes. */
  lemma {:induction false} TrimStartSlashes(u: string, v: string)
    requires AllSlashes(u)
    ensures TrimStart(u + v) == TrimStart(v)
    decreases |u|
  {
    if u == [] {
      assert u + v == v;
    } else {
      var w := u + v;
      assert w[0] == u[0];
      assert w[1..] == u[1..] + v;
      TrimStartSlashes(u[1..], v);
    }
  }

  /** Trimming both ends gives the same core whichever end goes first. */
  lemma {:induction false} TrimBothEnds(s: string)
    ensures TrimEnd(TrimStart(s)) == TrimStart(TrimEnd(s))
    decreases |s|
  {
    if s != [] && s[0] == '/' {
      var s' := s[1..];
      assert s == "/" + s';
      if AllSlashes(s) {
        TrimEndSlashes([], s);
        assert [] + s == s;
        TrimStartSlashes(s, []);
        assert s + [] == s;
      } else {
        assert !AllSlashes(s') by {
          var i :| 0 <= i < |s| && s[i] != '/';
          assert s'[i - 1] == s[i];
        }
        TrimEndConcat("/", s');
        TrimStartSlashes("/", TrimEnd(s'));
        TrimBothEnds(s');
      }
    } else {
      TrimEndMeaning(s);
      var e := TrimEnd(s);
      assert e != [] ==> e[0] == s[0];
      TrimStartNoop(e);
    }
  }

  /** Joining is associative: joining `b` and then `c` to a path is the same
      as joining to it the join of `b` and `c`. */
  lemma AppendAssociative(a: Path, b: string, c: string)
    ensures Append(Append(a, b), c) == Append(a, Append(Path(b), c).s)
  {
    if a.s != [] {
      if AllSlashes(b) {
        AppendAssociativeSlashes(a, b, c);
      } else {
        AppendAssociativeCore(a, b, c);
      }
    }
  }

  /** `AppendAssociative` when the middle segment is only slashes: it
      vanishes into the one seam slash. */
  lemma AppendAssociativeSlashes(a: Path, b: string, c: string)
    requires a.s != [] && AllSlashes(b)
    ensures Append(Append(a, b), c) == Append(a, Append(Path(b), c).s)
  {
    var ta, tsc := TrimEnd(a.s), TrimStart(c);
    TrimStartAllSlashes(b);
    var x := Append(a, b).s;
    assert x == ta + "/";
    TrimEndSlashes(ta, "/");
    TrimEndNoop(ta);
    assert Append(Path(x), c).s == ta + "/" + tsc;
    if b != [] {
      TrimEndAllSlashes(b);
      var y := Append(Path(b), c).s;
      assert y == "/" + tsc;
      TrimStartSlashes("/", tsc);
      TrimStartNoop(tsc);
      assert Append(a, y).s == ta + "/" + tsc;
    }
  }

  /** A segment with a character other than a slash keeps one after either
      trim. */
  lemma TrimKeepsCore(b: string)
    requires !AllSlashes(b)
    ensures !AllSlashes(TrimStart(b)) && !AllSlashes(TrimEnd(b))
  {
    TrimStartMeaning(b);
    TrimEndMeaning(b);
  }

  /** Trimming the end of `a` joined with `b` keeps `b` up to its last
      non-slash character. */
  lemma AppendCoreLeft(a: Path, b: string)
    requires a.s != [] && !AllSlashes(b)
    ensures TrimEnd(Append(a, b).s) == TrimEnd(a.s) + "/" + TrimEnd(TrimStart(b))
  {
    TrimKeepsCore(b);
    var ta, tsb := TrimEnd(a.s), TrimStart(b);
    assert Append(a, b).s == (ta + "/") + tsb;
    TrimEndConcat(ta + "/", tsb);
  }

  /** Trimming the start of `b` joined with `c` keeps `b` from its first
      non-slash character. */
  lemma AppendCoreRight(b: string, c: string)
    requires !AllSlashes(b)
    ensures TrimStart(Append(Path(b), c).s) == TrimStart(TrimEnd(b)) + "/" + TrimStart(c)
  {
    TrimKeepsCore(b);
    var teb, tsc := TrimEnd(b), TrimStart(c);
    assert Append(Path(b), c).s == teb + ("/" + tsc);
    TrimStartConcat(teb, "/" + tsc);
  }

  /** `AppendAssociative` when the middle segment holds a character other
      than a slash. */
  lemma AppendAssociativeCore(a: Path, b: string, c: string)
    requires a.s != [] && !AllSlashes(b)
    ensures Append(Append(a, b), c) == Append(a, Append(Path(b), c).s)
  {
    var ta, tsc := TrimEnd(a.s), TrimStart(c);
    var core := TrimEnd(TrimStart(b));
    AppendCoreLeft(a, b);
    AppendCoreRight(b, c);
    TrimBothEnds(b);
    var y := Append(Path(b), c).s;
    assert TrimStart(y) == core + "/" + tsc;
    assert Append(Append(a, b), c).s == (ta + "/" + core) + "/" + tsc;
    assert Append(a, y).s == ta + "/" + (core + "/" + tsc);
  }

  /** A leading slash on the first joined segment survives every later join. */
  lemma {:induction false} AppendAllKeepsLeadingSlash(p: Path, segments: seq<string>)
    requires StartsWithSlash(p.s) || (p.s == [] && segments != [] && StartsWithSlash(segments[0]))
    ensures StartsWithSlash(AppendAll(p, segments).s)
    decreases |segments|
  {
    if segments != [] {
      AppendKeepsLeadingSlash(p, segments[0]);
      AppendAllKeepsLeadingSlash(Append(p, segments[0]), segments[1..]);
    }
  }

  /** A trailing slash on the last joined segment survives. */
  lemma {:induction false} AppendAllKeepsTrailingSlash(p: Path, segments: seq<string>)
    requires segments != [] && EndsWithSlash(segments[|segments| - 1])
    ensures EndsWithSlash(AppendAll(p, segments).s)
    decreases |segments|
  {
    if |segments| == 1 {
      AppendKeepsTrailingSlash(p, segments[0]);
    } else {
      AppendAllKeepsTrailingSlash(Append(p, segments[0]), segments[1..]);
    }
  }

  /** `prepend` is `append` with its two arguments swapped. */
  lemma PrependIsSwappedAppend(p: Path, segment: string)
    requires p.s != [] && segment != []
    ensures Prepend(p, segment) == Append(Path(segment), p.s)
  {
  }

  /** The first three steps of the test at src/path.rs:33-42 with `Append`. */
  lemma SlashesFront()
    ensures AppendAll(New(), ["tst", "tst", "/tst/", "tst///", "////tst"])
         == AppendAll(Path("tst/tst/tst/"), ["tst///", "////tst"])
  {
    var segs := ["tst", "tst", "/tst/", "tst///", "////tst"];
    assert segs[1..][1..][1..] == ["tst///", "////tst"];
    assert Append(New(), "tst") == Path("tst");
    assert TrimEnd("tst") == "tst";
    assert TrimStart("tst") == "tst";
    assert Append(Path("tst"), "tst") == Path("tst/tst");
    assert TrimEnd("tst/tst") == "tst/tst";
    assert TrimStart("/tst/") == "tst/";
    assert Append(Path("tst/tst"), "/tst/") == Path("tst/tst/tst/");
  }

  /** The fourth step of the test at src/path.rs:33-42 with `Append`. */
  lemma SlashesFourth()
    ensures Append(Path("tst/tst/tst/"), "tst///") == Path("tst/tst/tst/tst///")
  {
    assert TrimEnd("tst/tst/tst/") == "tst/tst/tst";
    assert TrimStart("tst///") == "tst///";
  }

  /** The fifth step of the test at src/path.rs:33-42 with `Append`. */
  lemma SlashesFifth()
    ensures Append(Path("tst/tst/tst/tst///"), "////tst") == Path("tst/tst/tst/tst/tst")
  {
    assert TrimEnd("tst/tst/tst/tst///") == "tst/tst/tst/tst" by {
      assert "tst/tst/tst/tst///" == "tst/tst/tst/tst" + "///";
      TrimEndOf("tst/tst/tst/tst", "///");
    }
    assert TrimStart("////tst") == "tst" by {
      assert "////tst" == "////" + "tst";
      TrimStartOf("////", "tst");
    }
  }

  /** The test at src/path.rs:33-42, against `Append`. */
  lemma SlashesBetweenSegments()
    ensures AppendAll(New(), ["tst", "tst", "/tst/", "tst///", "////tst"]).s == "tst/tst/tst/tst/tst"
  {
    SlashesFront();
    SlashesFourth();
    SlashesFifth();
    assert ["tst///", "////tst"][1..] == ["////tst"];
    assert ["////tst"][1..] == [];
  }

  /** The test at src/path.rs:44-49, against `Append`: the leading slash
      of the first segment is kept. */
  lemma PreservePrefixSlash()
    ensures AppendAll(New(), ["/tst", "tst"]).s == "/tst/tst"
  {
    assert Append(New(), "/tst") == Path("/tst");
    assert TrimEnd("/tst") == "/tst";
    assert TrimStart("tst") == "tst";
    assert Append(Path("/tst"), "tst") == Path("/tst/tst");
    assert ["/tst", "tst"][1..] == ["tst"];
    assert ["tst"][1..] == [];
  }

  /** The test at src/path.rs:51-56, against `Append`: the trailing slash
      of the last segment is kept. */
  lemma PreserveTrailingSlash()
    ensures AppendAll(New(), ["tst", "tst/"]).s == "tst/tst/"
  {
    assert Append(New(), "tst") == Path("tst");
    assert TrimEnd("tst") == "tst";
    assert TrimStart("tst/") == "tst/";
    assert Append(Path("tst"), "tst/") == Path("tst/tst/");
    assert ["tst", "tst/"][1..] == ["tst/"];
    assert ["tst/"][1..] == [];
  }

  /** Slashes inside one segment are kept: only the ends are trimmed. */
  lemma InnerSlashesKept()
    ensures Append(Path("a"), "x//y").s == "a/x//y"
  {
  }

  /** The first three steps of the test at src/path.rs:33-42 with `prepend`. */
  lemma PrependSlashesFront()
    ensures PrependAll(New(), ["tst", "tst", "/tst/", "tst///", "////tst"])
         == PrependAll(Path("/tst/tst/tst"), ["tst///", "////tst"])
  {
    var segs := ["tst", "tst", "/tst/", "tst///", "////tst"];
    assert segs[1..][1..][1..] == ["tst///", "////tst"];
    assert Prepend(New(), "tst") == Path("tst");
    assert TrimEnd("tst") == "tst";
    assert TrimStart("tst") == "tst";
    assert Prepend(Path("tst"), "tst") == Path("tst/tst");
    assert TrimEnd("/tst/") == "/tst";
    assert TrimStart("tst/tst") == "tst/tst";
    assert Prepend(Path("tst/tst"), "/tst/") == Path("/tst/tst/tst");
  }

  /** The fourth step of the test at src/path.rs:33-42 with `prepend`. */
  lemma PrependSlashesFourth()
    ensures Prepend(Path("/tst/tst/tst"), "tst///") == Path("tst/tst/tst/tst")
  {
    assert TrimEnd("tst///") == "tst" by {
      assert "tst///" == "tst" + "///";
      TrimEndOf("tst", "///");
    }
    assert TrimStart("/tst/tst/tst") == "tst/tst/tst";
  }

  /** The fifth step of the test at src/path.rs:33-42 with `prepend`. */
  lemma PrependSlashesFifth()
    ensures Prepend(Path("tst/tst/tst/tst"), "////tst") == Path("////tst/tst/tst/tst/tst")
  {
    assert TrimEnd("////tst") == "////tst";
    assert TrimStart("tst/tst/tst/tst") == "tst/tst/tst/tst";
  }

  /** The last two steps of the test at src/path.rs:33-42 with `prepend`. */
  lemma PrependSlashesBack()
    ensures PrependAll(Path("/tst/tst/tst"), ["tst///", "////tst"]).s == "////tst/tst/tst/tst/tst"
  {
    PrependSlashesFourth();
    PrependSlashesFifth();
    assert ["tst///", "////tst"][1..] == ["////tst"];
    assert ["////tst"][1..] == [];
  }

  /** The test at src/path.rs:33-42, against `prepend` as written: the
      path comes out with the last segment first and its four slashes kept. */
  lemma PrependFailsSlashesTest()
    ensures PrependAll(New(), ["tst", "tst", "/tst/", "tst///", "////tst"]).s == "////tst/tst/tst/tst/tst"
  {
    PrependSlashesFront();
    PrependSlashesBack();
  }

  /** The test at src/path.rs:45-49, against `prepend` as written: the
      leading slash is lost. */
  lemma PrependDropsPrefixSlash()
    ensures PrependAll(New(), ["/tst", "tst"]).s == "tst/tst"
  {
    var p1 := Prepend(New(), "/tst");
    assert p1.s == "/tst";
    assert TrimEnd("tst") == "tst";
    assert TrimStart("/tst") == "tst";
    assert Prepend(p1, "tst").s == "tst/tst";
    assert PrependAll(Prepend(p1, "tst"), []) == Prepend(p1, "tst");
  }

  /** The test at src/path.rs:52-56, against `prepend` as written: the
      trailing slash is lost. */
  lemma PrependDropsTrailingSlash()
    ensures PrependAll(New(), ["tst", "tst/"]).s == "tst/tst"
  {
    var p1 := Prepend(New(), "tst");
    assert p1.s == "tst";
    assert TrimEnd("tst/") == "tst";
    assert TrimStart("tst") == "tst";
    assert Prepend(p1, "tst/").s == "tst/tst";
    assert PrependAll(Prepend(p1, "tst/"), []) == Prepend(p1, "tst/");
  }
}

=== FILE: prototype.dfy ===
/** The earlier builder kept in src/lib.rs. Each node carries what it was
    added for (the root, a path segment or a middleware), its branches in the
    order they were added, and its endpoints keyed by HTTP method. Unlike the
    route tree of module RouteSegments, its `build` emits only a node's own
    endpoints, with an empty path and no middleware, and
    `build_branch_endpoints` goes one level down and no further. The builder
    takes itself by value and returns itself, so its operations are functions
    here; handlers (`H`) and middleware (`M`) are opaque. */
module Prototype {
  import opened MapOrder
  import Http

  /** What a node was added for (the source's `RouteSegment` enum). */
  datatype Segment<M> = RootSegment | PathSegment(path: string) | MiddlewareSegment(middleware: M)

  datatype RouteBuilder<H, M> = RouteBuilder(
    route: Segment<M>,
    branches: seq<RouteBuilder<H, M>>,
    endpoints: map<Http.Method, H>)

  /** The source's `EndpointDescriptor(path, middleware, method, endpoint)`. */
  datatype EndpointDescriptor<H, M> = EndpointDescriptor(
    path: string,
    middleware: seq<M>,
    verb: Http.Method,
    endpoint: H)

  /** A node for `spec` with no branches and no endpoints. */
  function Fresh<H, M>(spec: Segment<M>): (b: RouteBuilder<H, M>)
    ensures b.route == spec && b.branches == [] && b.endpoints == map[]
  {
    RouteBuilder(spec, [], map[])
  }

  /** `root()`: the root node, with no branches and no endpoints. */
  function Root<H, M>(): (r: RouteBuilder<H, M>)
    ensures r.route == RootSegment && r.branches == [] && r.endpoints == map[]
  {
    Fresh(RootSegment)
  }

  /** `after` is `before` with `branch` added as its last branch and nothing
      else changed. */
  ghost predicate AddsBranch<H, M>(before: RouteBuilder<H, M>, after: RouteBuilder<H, M>, branch: RouteBuilder<H, M>)
  {
    && after.route == before.route
    && after.endpoints == before.endpoints
    && |after.branches| == |before.branches| + 1
    && after.branches[..|before.branches|] == before.branches
    && after.branches[|before.branches|] == branch
  }

  /** `add_branch`: the closure fills a fresh node for `spec`, and what it
      returns becomes the last branch. */
  function AddBranch<H, M>(self: RouteBuilder<H, M>, spec: Segment<M>,
                           routes: RouteBuilder<H, M> -> RouteBuilder<H, M>): (r: RouteBuilder<H, M>)
    ensures AddsBranch(self, r, routes(Fresh(spec)))
  {
    var r := self.(branches := self.branches + [routes(Fresh(spec))]);
    assert r.branches[..|self.branches|] == self.branches;
    r
  }

  /** `at`: a branch for the path segment `path`. */
  function At<H, M>(self: RouteBuilder<H, M>, path: string,
                    routes: RouteBuilder<H, M> -> RouteBuilder<H, M>): (r: RouteBuilder<H, M>)
    ensures AddsBranch(self, r, routes(Fresh(PathSegment(path))))
  {
    AddBranch(self, PathSegment(path), routes)
  }

  /** `with`: a branch for the middleware `middleware`. */
  function With<H, M>(self: RouteBuilder<H, M>, middleware: M,
                      routes: RouteBuilder<H, M> -> RouteBuilder<H, M>): (r: RouteBuilder<H, M>)
    ensures AddsBranch(self, r, routes(Fresh(MiddlewareSegment(middleware))))
  {
    AddBranch(self, MiddlewareSegment(middleware), routes)
  }

  /** `method`: `endpoint` becomes the endpoint for `verb`, replacing an
      earlier one; every other verb keeps its endpoint (or its absence), and
      the segment and the branches are unchanged. */
  function Method<H, M>(self: RouteBuilder<H, M>, verb: Http.Method, endpoint: H): (r: RouteBuilder<H, M>)
    ensures r.route == self.route && r.branches == self.branches
    ensures verb in r.endpoints && r.endpoints[verb] == endpoint
    ensures forall v :: v != verb ==> (v in r.endpoints <==> v in self.endpoints)
    ensures forall v :: v != verb && v in self.endpoints ==> r.endpoints[v] == self.endpoints[v]
  {
    self.(endpoints := self.endpoints[verb := endpoint])
  }

  /** Listing the endpoints in the order of `Http.AllMethods` emits every
      verb of the map, once. */
  lemma EntriesOfEndpoints<H>(endpoints: map<Http.Method, H>)
    ensures var es := Entries(endpoints, Http.AllMethods);
      && |es| == |endpoints|
      && (forall v :: v in endpoints ==> v in KeysOf(es))
      && Distinct(KeysOf(es))
  {
    Http.AllMethodsDistinct();
    Http.AllMethodsComplete();
    EntriesComplete(endpoints, Http.AllMethods);
  }

  /** `build`: one descriptor per endpoint of this node, each with an empty
      path and no middleware. The order is that of the `HashMap` the source
      iterates, which is unspecified; the model uses the order of
      `Http.AllMethods`, and the contract says nothing about order. */
  function Build<H, M>(self: RouteBuilder<H, M>): (r: seq<EndpointDescriptor<H, M>>)
    ensures |r| == |self.endpoints|
    ensures forall i :: 0 <= i < |r| ==>
      && r[i].path == [] && r[i].middleware == []
      && r[i].verb in self.endpoints && r[i].endpoint == self.endpoints[r[i].verb]
  {
    var es := Entries(self.endpoints, Http.AllMethods);
    EntriesOfEndpoints(self.endpoints);
    seq(|es|, i requires 0 <= i < |es| => EndpointDescriptor([], [], es[i].0, es[i].1))
  }

  /** A verb that has an endpoint appears in `build`. */
  lemma BuildHasVerb<H, M>(self: RouteBuilder<H, M>, v: Http.Method)
    requires v in self.endpoints
    ensures exists i :: 0 <= i < |Build(self)| && Build(self)[i].verb == v
  {
    var es := Entries(self.endpoints, Http.AllMethods);
    EntriesOfEndpoints(self.endpoints);
    var ks := KeysOf(es);
    assert v in ks;
    var i :| 0 <= i < |ks| && ks[i] == v;
    assert Build(self)[i].verb == es[i].0;
  }

  /** Every verb that has an endpoint appears in `build`, and no verb twice. */
  lemma BuildCovers<H, M>(self: RouteBuilder<H, M>)
    ensures forall v :: v in self.endpoints ==> exists i :: 0 <= i < |Build(self)| && Build(self)[i].verb == v
    ensures forall i, j :: 0 <= i < j < |Build(self)| ==> Build(self)[i].verb != Build(self)[j].verb
  {
    forall v | v in self.endpoints
      ensures exists i :: 0 <= i < |Build(self)| && Build(self)[i].verb == v
    {
      BuildHasVerb(self, v);
    }
    var es := Entries(self.endpoints, Http.AllMethods);
    EntriesOfEndpoints(self.endpoints);
    var r, ks := Build(self), KeysOf(es);
    forall i, j | 0 <= i < j < |r|
      ensures r[i].verb != r[j].verb
    {
      assert r[i].verb == ks[i] && r[j].verb == ks[j];
    }
  }

  /** The local builds of `bs`, in order (the `flat_map` over branches). */
  function BuildAll<H, M>(bs: seq<RouteBuilder<H, M>>): (r: seq<EndpointDescriptor<H, M>>)
    ensures Bare(r)
    decreases |bs|
  {
    if bs == [] then []
    else
      var front, last := BuildAll(bs[..|bs| - 1]), Build(bs[|bs| - 1]);
      BareConcat(front, last);
      front + last
  }

  /** `build_branch_endpoints`: the local build of each direct branch. */
  function BuildBranchEndpoints<H, M>(self: RouteBuilder<H, M>): (r: seq<EndpointDescriptor<H, M>>)
    ensures Bare(r)
  {
    BuildAll(self.branches)
  }

  /** The number of endpoints held directly by the nodes `bs`. */
  function LocalCount<H, M>(bs: seq<RouteBuilder<H, M>>): nat
    decreases |bs|
  {
    if bs == [] then 0 else LocalCount(bs[..|bs| - 1]) + |bs[|bs| - 1].endpoints|
  }

  /** `build` looks at nothing but the endpoints: not the segment, not the
      branches. */
  lemma BuildIgnoresBranches<H, M>(a: RouteBuilder<H, M>, b: RouteBuilder<H, M>)
    requires a.endpoints == b.endpoints
    ensures Build(a) == Build(b)
  {
  }

  /** A second `method` for the same verb replaces the first. */
  lemma MethodReplaces<H, M>(self: RouteBuilder<H, M>, verb: Http.Method, first: H, second: H)
    ensures Method(Method(self, verb, first), verb, second) == Method(self, verb, second)
  {
    assert Method(Method(self, verb, first), verb, second).endpoints == Method(self, verb, second).endpoints;
  }

  /** `method` adds one descriptor to `build`, or none when it replaces an
      endpoint for the same verb. */
  lemma MethodBuildLength<H, M>(self: RouteBuilder<H, M>, verb: Http.Method, endpoint: H)
    ensures |Build(Method(self, verb, endpoint))| == |Build(self)| + (if verb in self.endpoints then 0 else 1)
  {
    var r := Method(self, verb, endpoint);
    if verb in self.endpoints {
      assert r.endpoints.Keys == self.endpoints.Keys;
    } else {
      assert r.endpoints.Keys == self.endpoints.Keys + {verb};
    }
  }

  /** `build_branch_endpoints` yields one descriptor per endpoint of a
      direct branch. */
  lemma {:induction false} BuildAllLength<H, M>(bs: seq<RouteBuilder<H, M>>)
    ensures |BuildAll(bs)| == LocalCount(bs)
    decreases |bs|
  {
    if bs != [] {
      BuildAllLength(bs[..|bs| - 1]);
    }
  }

  /** Each branch's descriptors come after those of the branches added
      before it. */
  lemma {:induction false} BuildAllSnoc<H, M>(bs: seq<RouteBuilder<H, M>>, b: RouteBuilder<H, M>)
    ensures BuildAll(bs + [b]) == BuildAll(bs) + Build(b)
  {
    assert (bs + [b])[..|bs|] == bs;
  }

  /** Only the direct branches' own endpoints matter: two lists of branches
      with the same endpoints, pairwise, give the same descriptors, whatever
      their segments and their own branches (the grandchildren). */
  lemma {:induction false} BuildAllShallow<H, M>(bs: seq<RouteBuilder<H, M>>, cs: seq<RouteBuilder<H, M>>)
    requires |bs| == |cs|
    requires forall i :: 0 <= i < |bs| ==> bs[i].endpoints == cs[i].endpoints
    ensures BuildAll(bs) == BuildAll(cs)
    decreases |bs|
  {
    if bs != [] {
      BuildIgnoresBranches(bs[|bs| - 1], cs[|cs| - 1]);
      BuildAllShallow(bs[..|bs| - 1], cs[..|cs| - 1]);
    }
  }

  /** After `add_branch`, `build_branch_endpoints` yields what it did before,
      then the local build of the new branch. */
  lemma AddsBranchEndpoints<H, M>(before: RouteBuilder<H, M>, after: RouteBuilder<H, M>, branch: RouteBuilder<H, M>)
    requires AddsBranch(before, after, branch)
    ensures BuildBranchEndpoints(after) == BuildBranchEndpoints(before) + Build(branch)
    ensures Build(after) == Build(before)
  {
    assert after.branches == before.branches + [branch];
    BuildAllSnoc(before.branches, branch);
  }

  /** `at` and `with` leave `build` alone and add the new branch's local
      endpoints at the end of `build_branch_endpoints`. */
  lemma AtWithEndpoints<H, M>(self: RouteBuilder<H, M>, path: string, middleware: M,
                              routes: RouteBuilder<H, M> -> RouteBuilder<H, M>)
    ensures var r := At(self, path, routes);
      && Build(r) == Build(self)
      && BuildBranchEndpoints(r) == BuildBranchEndpoints(self) + Build(routes(Fresh(PathSegment(path))))
    ensures var r := With(self, middleware, routes);
      && Build(r) == Build(self)
      && BuildBranchEndpoints(r) == BuildBranchEndpoints(self) + Build(routes(Fresh(MiddlewareSegment(middleware))))
  {
    AddsBranchEndpoints(self, At(self, path, routes), routes(Fresh(PathSegment(path))));
    AddsBranchEndpoints(self, With(self, middleware, routes), routes(Fresh(MiddlewareSegment(middleware))));
  }

  /** A node holding GET and POST and nothing else. */
  ghost predicate GetPostNode<H, M>(b: RouteBuilder<H, M>)
  {
    && Http.Get in b.endpoints && Http.Post in b.endpoints && |b.endpoints| == 2
  }

  lemma GetPostOnFresh<H, M>(spec: Segment<M>, h: H)
    ensures GetPostNode(Method(Method(Fresh<H, M>(spec), Http.Get, h), Http.Post, h))
  {
    var b := Method(Method(Fresh<H, M>(spec), Http.Get, h), Http.Post, h);
    assert b.endpoints.Keys == {Http.Get, Http.Post};
  }

  /** The nested route of src/lib.rs:164-182 (`leaf` is its closure, which
      registers GET and POST): the root's `build` yields only its own two
      endpoints, and `build_branch_endpoints` the two of each of the "api/v1"
      and "api/v2" branches; every descriptor has an empty path and no
      middleware, so the branch paths are lost. */
  lemma NestedRouteExample<H, M>(h: H, leaf: RouteBuilder<H, M> -> RouteBuilder<H, M>)
    requires forall b :: leaf(b) == Method(Method(b, Http.Get, h), Http.Post, h)
    ensures var tree := At(At(Method(Method(Root<H, M>(), Http.Get, h), Http.Post, h), "api/v1", leaf), "api/v2", leaf);
      && |Build(tree)| == 2
      && |BuildBranchEndpoints(tree)| == 4
      && Bare(BuildBranchEndpoints(tree))
  {
    var t0 := Method(Method(Root<H, M>(), Http.Get, h), Http.Post, h);
    GetPostOnFresh<H, M>(RootSegment, h);
    var v1 := leaf(Fresh(PathSegment("api/v1")));
    var v2 := leaf(Fresh(PathSegment("api/v2")));
    GetPostOnFresh<H, M>(PathSegment("api/v1"), h);
    GetPostOnFresh<H, M>(PathSegment("api/v2"), h);
    var t1 := At(t0, "api/v1", leaf);
    var tree := At(t1, "api/v2", leaf);
    TwoBranches(t0, t1, tree, v1, v2);
    BareConcat(Build(v1), Build(v2));
  }

  /** Every descriptor has an empty path and no middleware. */
  predicate Bare<H, M>(ds: seq<EndpointDescriptor<H, M>>)
  {
    forall i :: 0 <= i < |ds| ==> ds[i].path == [] && ds[i].middleware == []
  }

  lemma BareConcat<H, M>(a: seq<EndpointDescriptor<H, M>>, b: seq<EndpointDescriptor<H, M>>)
    requires Bare(a) && Bare(b)
    ensures Bare(a + b)
  {
    forall i | 0 <= i < |a + b|
      ensures (a + b)[i].path == [] && (a + b)[i].middleware == []
    {
      if i >= |a| {
        assert (a + b)[i] == b[i - |a|];
      }
    }
  }

  /** Two branches added in turn to a node without branches: `build` is
      unchanged and `build_branch_endpoints` is their local builds, in
      order. */
  lemma TwoBranches<H, M>(t0: RouteBuilder<H, M>, t1: RouteBuilder<H, M>, t2: RouteBuilder<H, M>,
                          v1: RouteBuilder<H, M>, v2: RouteBuilder<H, M>)
    requires t0.branches == [] && AddsBranch(t0, t1, v1) && AddsBranch(t1, t2, v2)
    ensures Build(t2) == Build(t0)
    ensures BuildBranchEndpoints(t2) == Build(v1) + Build(v2)
  {
    AddsBranchEndpoints(t0, t1, v1);
    AddsBranchEndpoints(t1, t2, v2);
    var b1, b2 := Build(v1), Build(v2);
    assert BuildBranchEndpoints(t0) == [];
    assert BuildBranchEndpoints(t1) == [] + b1;
    assert [] + b1 == b1;
  }
}

=== FILE: reverse_router.dfy ===
/** The reverse router (src/reverse_router.rs): a table from route name to
    the path of the route, filled by `Insert` and read by `Resolve`. */
module ReverseRouting {

  class ReverseRouter {
    var routes: map<string, string>

    /** `ReverseRouter::new()`: no routes. */
    constructor ()
      ensures routes == map[]
    {
      routes := map[];
    }

    /** `insert`: records `route` under `name`, replacing what was recorded
        under that name before; every other name keeps its route. */
    method Insert(name: string, route: string)
      modifies this
      ensures name in routes && routes[name] == route
      ensures forall n :: n != name ==> (n in routes <==> n in old(routes))
      ensures forall n :: n != name && n in old(routes) ==> routes[n] == old(routes)[n]
      ensures routes.Keys == old(routes).Keys + {name}
      ensures routes == old(routes)[name := route]
    {
      routes := routes[name := route];
    }

    /** `resolve`: the route recorded under `name`. The source indexes the map
        and panics on a name never inserted, so callers must only ask for
        names that are there. Reading changes nothing. */
    method Resolve(name: string) returns (route: string)
      requires name in routes
      ensures route == routes[name]
    {
      route := routes[name];
    }
  }

  /** An insert followed by a resolve of the same name gives back the route
      just inserted, and a resolve of another name is not disturbed. */
  method InsertThenResolve(router: ReverseRouter, name: string, route: string, other: string)
    returns (got: string, gotOther: string)
    requires other != name && other in router.routes
    modifies router
    ensures got == route
    ensures gotOther == old(router.routes)[other]
  {
    router.Insert(name, route);
    got := router.Resolve(name);
    gotOther := router.Resolve(other);
  }
}

=== FILE: routebuilder.dfy ===
/** The builder vocabulary (src/routebuilder.rs): `at`, `with`, `method`,
    `all` and `name` are the `RouteBuilder` operations defined on `SubRoute`
    in module RouteSegments; this module holds the `RouteBuilderExt`
    shortcuts, one per HTTP verb, each a call of `method`, and two route trees
    worked through to their flattened form. */
module RouteBuilderExt {
  import opened Wrappers
  import Http
  import opened PathJoin
  import opened RouteSegments

  function Get<H, M, E>(self: SubRoute<H, M, E>, endpoint: H): (r: SubRoute<H, M, E>)
    ensures r == Method(self, Http.Get, endpoint)
    ensures Registers(self, r, Some(Http.Get), endpoint)
  {
    Method(self, Http.Get, endpoint)
  }

  function Head<H, M, E>(self: SubRoute<H, M, E>, endpoint: H): (r: SubRoute<H, M, E>)
    ensures r == Method(self, Http.Head, endpoint)
    ensures Registers(self, r, Some(Http.Head), endpoint)
  {
    Method(self, Http.Head, endpoint)
  }

  function Put<H, M, E>(self: SubRoute<H, M, E>, endpoint: H): (r: SubRoute<H, M, E>)
    ensures r == Method(self, Http.Put, endpoint)
    ensures Registers(self, r, Some(Http.Put), endpoint)
  {
    Method(self, Http.Put, endpoint)
  }

  function Post<H, M, E>(self: SubRoute<H, M, E>, endpoint: H): (r: SubRoute<H, M, E>)
    ensures r == Method(self, Http.Post, endpoint)
    ensures Registers(self, r, Some(Http.Post), endpoint)
  {
    Method(self, Http.Post, endpoint)
  }

  function Delete<H, M, E>(self: SubRoute<H, M, E>, endpoint: H): (r: SubRoute<H, M, E>)
    ensures r == Method(self, Http.Delete, endpoint)
    ensures Registers(self, r, Some(Http.Delete), endpoint)
  {
    Method(self, Http.Delete, endpoint)
  }

  function Options<H, M, E>(self: SubRoute<H, M, E>, endpoint: H): (r: SubRoute<H, M, E>)
    ensures r == Method(self, Http.Options, endpoint)
    ensures Registers(self, r, Some(Http.Options), endpoint)
  {
    Method(self, Http.Options, endpoint)
  }

  function Connect<H, M, E>(self: SubRoute<H, M, E>, endpoint: H): (r: SubRoute<H, M, E>)
    ensures r == Method(self, Http.Connect, endpoint)
    ensures Registers(self, r, Some(Http.Connect), endpoint)
  {
    Method(self, Http.Connect, endpoint)
  }

  function Patch<H, M, E>(self: SubRoute<H, M, E>, endpoint: H): (r: SubRoute<H, M, E>)
    ensures r == Method(self, Http.Patch, endpoint)
    ensures Registers(self, r, Some(Http.Patch), endpoint)
  {
    Method(self, Http.Patch, endpoint)
  }

  function Trace<H, M, E>(self: SubRoute<H, M, E>, endpoint: H): (r: SubRoute<H, M, E>)
    ensures r == Method(self, Http.Trace, endpoint)
    ensures Registers(self, r, Some(Http.Trace), endpoint)
  {
    Method(self, Http.Trace, endpoint)
  }

  /** `r` has the same catch-all as `self` (or, like it, none). */
  ghost predicate SameCatchAll<H, M, E>(self: SubRoute<H, M, E>, r: SubRoute<H, M, E>)
    requires self.Ok? && r.Ok?
  {
    && (None in r.segment.endpoints <==> None in self.segment.endpoints)
    && (None in self.segment.endpoints ==> r.segment.endpoints[None] == self.segment.endpoints[None])
  }

  /** No shortcut touches the catch-all; only `all` registers one. */
  lemma ShortcutsKeepCatchAll<H, M, E>(self: SubRoute<H, M, E>, endpoint: H)
    requires self.Ok?
    ensures SameCatchAll(self, Get(self, endpoint)) && SameCatchAll(self, Head(self, endpoint))
    ensures SameCatchAll(self, Put(self, endpoint)) && SameCatchAll(self, Post(self, endpoint))
    ensures SameCatchAll(self, Delete(self, endpoint)) && SameCatchAll(self, Options(self, endpoint))
    ensures SameCatchAll(self, Connect(self, endpoint)) && SameCatchAll(self, Patch(self, endpoint))
    ensures SameCatchAll(self, Trace(self, endpoint))
    ensures var r := All(self, endpoint); None in r.segment.endpoints && r.segment.endpoints[None] == endpoint
  {
  }

  /** A segment with no branches flattens to its own endpoints. */
  lemma LeafBuild<H, M>(s: RouteSegment<H, M>)
    requires s.branches == []
    ensures Build(s) == Local(s)
  {
    assert BuildBranches(s.branches) == [];
    assert Local(s) + [] == Local(s);
  }

  /** `s` is a leaf at `path` with middleware `middleware` holding GET and
      POST endpoints. */
  ghost predicate GetPostLeaf<H, M>(s: RouteSegment<H, M>, path: string, middleware: seq<M>)
  {
    && s.path.s == path && s.middleware == middleware && s.branches == []
    && s.endpoints.Keys == {Some(Http.Get), Some(Http.Post)}
  }

  /** Two handler routes, one for GET and one for POST, in either order. */
  predicate GetAndPost<H>(x: Route<H>, y: Route<H>)
  {
    && x.Handler? && y.Handler?
    && ((x.key == Some(Http.Get) && y.key == Some(Http.Post)) || (x.key == Some(Http.Post) && y.key == Some(Http.Get)))
  }

  /** A leaf with GET and POST flattens to two routes at its path, one for
      each verb. */
  lemma GetPostLeafBuild<H, M>(s: RouteSegment<H, M>, path: string, middleware: seq<M>)
    requires GetPostLeaf(s, path, middleware)
    ensures var b := Build(s);
      && |b| == 2 && b[0].path.s == path && b[1].path.s == path
      && b[0].middleware == middleware && b[1].middleware == middleware
      && b[0].route.Handler? && b[1].route.Handler?
      && GetAndPost(b[0].route, b[1].route)
  {
    LeafBuild(s);
    assert |s.endpoints| == 2 by {
      assert |s.endpoints.Keys| == |{Some(Http.Get), Some(Http.Post)}|;
    }
  }

  /** GET and POST registered on a fresh child make a GET/POST leaf. */
  lemma GetPostChild<H, M, E>(path: Path, middleware: seq<M>, h: H)
    ensures var built := Post(Get<H, M, E>(Ok(Child(path, middleware)), h), h);
      built.Ok? && GetPostLeaf(built.segment, path.s, middleware)
  {
    var built := Post(Get<H, M, E>(Ok(Child(path, middleware)), h), h);
    assert built.segment.endpoints == map[Some(Http.Get) := h][Some(Http.Post) := h];
  }

  /** `at` with a closure that registers GET and POST on the child, under a
      segment with no middleware: two routes at the joined path come after the
      segment's own. */
  lemma AtGetPostLeaf<H, M, E>(parent: SubRoute<H, M, E>, segment: string, h: H,
                               leaf: SubRoute<H, M, E> -> SubRoute<H, M, E>, path: string)
    requires forall r :: leaf(r) == Post(Get(r, h), h)
    requires parent.Ok? && parent.segment.middleware == []
    requires Append(parent.segment.path, segment).s == path
    ensures var t := At(parent, segment, leaf);
      && t.Ok? && t.segment.path == parent.segment.path && t.segment.middleware == []
      && var a, b := Build(parent.segment), Build(t.segment);
      && |b| == |a| + 2 && b[..|a|] == a
      && b[|a|].path.s == path && b[|a| + 1].path.s == path
      && b[|a|].middleware == [] && b[|a| + 1].middleware == []
      && GetAndPost(b[|a|].route, b[|a| + 1].route)
  {
    var childPath := Append(parent.segment.path, segment);
    var built := leaf(Ok(Child(childPath, [])));
    GetPostChild<H, M, E>(childPath, [], h);
    var leafRoutes := Build(built.segment);
    GetPostLeafBuild(built.segment, path, []);
    AtBuild(parent, segment, leaf);
    var a, b := Build(parent.segment), Build(At(parent, segment, leaf).segment);
    assert b == a + leafRoutes;
    assert b[|a|] == leafRoutes[0] && b[|a| + 1] == leafRoutes[1];
  }

  /** The joined paths of the two example trees. */
  lemma ExamplePaths()
    ensures Append(Path("/"), "api/v1").s == "/api/v1"
    ensures Append(Path("/"), "api/v2").s == "/api/v2"
    ensures Append(Path("/"), "path") == Path("/path")
    ensures Append(Path("/path"), "subpath") == Path("/path/subpath")
  {
    AppendToRoot("api/v1");
    TrimStartNoop("api/v1");
    AppendToRoot("api/v2");
    TrimStartNoop("api/v2");
    AppendToRoot("path");
    TrimStartNoop("path");
    AppendPlain(Path("/path"), "subpath");
  }

  /** GET and POST registered on the root: two routes at "/" with no
      middleware. */
  lemma RootGetPost<H, M, E>(h: H)
    ensures var t := Post(Get(Root<H, M, E>(), h), h);
      && t.Ok? && t.segment.path == Path("/") && t.segment.middleware == []
      && var b := Build(t.segment);
      && |b| == 2 && b[0].path.s == "/" && b[1].path.s == "/"
      && b[0].middleware == [] && b[1].middleware == []
      && GetAndPost(b[0].route, b[1].route)
  {
    var t := Post(Get(Root<H, M, E>(), h), h);
    assert Root<H, M, E>() == Ok(Child(Path("/"), []));
    GetPostChild<H, M, E>(Path("/"), [], h);
    GetPostLeafBuild(t.segment, "/", []);
  }

  /** The first two levels of `RouteExample`: GET and POST at the root and
      under "api/v1". */
  lemma RouteExampleV1<H, M, E>(h: H, leaf: SubRoute<H, M, E> -> SubRoute<H, M, E>)
    requires forall r :: leaf(r) == Post(Get(r, h), h)
    ensures var t := At(Post(Get(Root<H, M, E>(), h), h), "api/v1", leaf);
      && t.Ok? && t.segment.path == Path("/") && t.segment.middleware == []
      && var b := Build(t.segment);
      && |b| == 4
      && b[0].path.s == "/" && b[1].path.s == "/" && b[2].path.s == "/api/v1" && b[3].path.s == "/api/v1"
      && b[0].middleware == [] && b[1].middleware == [] && b[2].middleware == [] && b[3].middleware == []
      && GetAndPost(b[0].route, b[1].route) && GetAndPost(b[2].route, b[3].route)
  {
    var t0 := Post(Get(Root<H, M, E>(), h), h);
    RootGetPost<H, M, E>(h);
    var b0 := Build(t0.segment);
    ExamplePaths();
    AtGetPostLeaf(t0, "api/v1", h, leaf, "/api/v1");
    var b := Build(At(t0, "api/v1", leaf).segment);
    assert b[..2] == b0;
    assert b[0] == b0[0] && b[1] == b0[1];
  }

  /** The tree of examples/route.rs:11-15 (`leaf` is its closure, which
      registers GET and POST): GET and POST at the root, under "api/v1" and
      under "api/v2". It flattens to six routes, two at each path, in branch
      order, none with middleware. */
  lemma RouteExample<H, M, E>(h: H, leaf: SubRoute<H, M, E> -> SubRoute<H, M, E>)
    requires forall r :: leaf(r) == Post(Get(r, h), h)
    ensures var tree := At(At(Post(Get(Root<H, M, E>(), h), h), "api/v1", leaf), "api/v2", leaf);
      && tree.Ok?
      && var b := Build(tree.segment);
      && |b| == 6
      && b[0].path.s == "/" && b[1].path.s == "/"
      && b[2].path.s == "/api/v1" && b[3].path.s == "/api/v1"
      && b[4].path.s == "/api/v2" && b[5].path.s == "/api/v2"
      && b[0].middleware == [] && b[1].middleware == [] && b[2].middleware == []
      && b[3].middleware == [] && b[4].middleware == [] && b[5].middleware == []
      && GetAndPost(b[0].route, b[1].route) && GetAndPost(b[2].route, b[3].route)
      && GetAndPost(b[4].route, b[5].route)
  {
    var t1 := At(Post(Get(Root<H, M, E>(), h), h), "api/v1", leaf);
    RouteExampleV1(h, leaf);
    var b1 := Build(t1.segment);
    ExamplePaths();
    AtGetPostLeaf(t1, "api/v2", h, leaf, "/api/v2");
    var b := Build(At(t1, "api/v2", leaf).segment);
    assert b[..4] == b1;
    assert b[0] == b1[0] && b[1] == b1[1] && b[2] == b1[2] && b[3] == b1[3];
  }

  /** A segment with exactly one GET endpoint, `h`, and no branches
      flattens to that one route. */
  lemma SingleGetBuild<H, M>(s: RouteSegment<H, M>, h: H)
    requires s.branches == [] && s.endpoints == map[Some(Http.Get) := h]
    ensures Build(s) == [RouteDescriptor(s.path, s.middleware, Handler(Some(Http.Get), h))]
  {
    LeafBuild(s);
  }

  /** A segment with no endpoints and no branches flattens to nothing. */
  lemma EmptyBuild<H, M>(s: RouteSegment<H, M>)
    requires s.branches == [] && s.endpoints == map[]
    ensures Build(s) == []
  {
    LeafBuild(s);
  }

  /** `get(h)` on a fresh child: one GET route with the child's path and
      middleware. */
  lemma GetChildBuild<H, M, E>(path: Path, middleware: seq<M>, h: H)
    ensures var r := Get<H, M, E>(Ok(Child(path, middleware)), h);
      r.Ok? && Build(r.segment) == [RouteDescriptor(path, middleware, Handler(Some(Http.Get), h))]
  {
    var r := Get<H, M, E>(Ok(Child(path, middleware)), h);
    assert r.segment.endpoints == map[Some(Http.Get) := h];
    SingleGetBuild(r.segment, h);
  }

  /** `with(m, routes)` on a fresh child flattens to what `routes` makes of
      the child with `m` appended to its middleware. */
  lemma WithChildBuild<H, M, E>(path: Path, middleware: seq<M>, m: M,
                                routes: SubRoute<H, M, E> -> SubRoute<H, M, E>)
    requires routes(Ok(Child(path, middleware + [m]))).Ok?
    ensures var r := With(Ok(Child<H, M>(path, middleware)), m, routes);
      r.Ok? && Build(r.segment) == Build(routes(Ok(Child(path, middleware + [m]))).segment)
  {
    WithBuild(Ok(Child<H, M>(path, middleware)), m, routes);
    EmptyBuild(Child<H, M>(path, middleware));
  }

  /** `at(p, routes)` on a fresh child flattens to what `routes` makes of
      the child at the joined path. */
  lemma AtChildBuild<H, M, E>(path: Path, middleware: seq<M>, segment: string,
                              routes: SubRoute<H, M, E> -> SubRoute<H, M, E>)
    requires routes(Ok(Child(Append(path, segment), middleware))).Ok?
    ensures var r := At(Ok(Child<H, M>(path, middleware)), segment, routes);
      r.Ok? && Build(r.segment) == Build(routes(Ok(Child(Append(path, segment), middleware))).segment)
  {
    AtBuild(Ok(Child<H, M>(path, middleware)), segment, routes);
    EmptyBuild(Child<H, M>(path, middleware));
  }

  /** `get(h)` on a segment with no endpoints of its own puts the GET route
      before the flattened branches. */
  lemma GetFirstBuild<H, M, E>(self: SubRoute<H, M, E>, h: H)
    requires self.Ok? && self.segment.endpoints == map[]
    ensures var r := Get(self, h);
      r.Ok? && Build(r.segment) ==
        [RouteDescriptor(self.segment.path, self.segment.middleware, Handler(Some(Http.Get), h))]
          + BuildBranches(self.segment.branches)
  {
    var s := Get(self, h).segment;
    assert s.endpoints == map[Some(Http.Get) := h];
    var l := Local(s);
    assert |l| == 1 && l[0].route.key == Some(Http.Get);
    assert l == [RouteDescriptor(s.path, s.middleware, Handler(Some(Http.Get), h))];
  }

  /** The innermost closures of `MiddlewareScopeExample`,
      |r| r.with(mw2, |r| r.get(h)), on a child at `path` under `middleware`:
      one GET route with `mw2` appended to the middleware. */
  lemma InnerScope<H, M, E>(h: H, mw2: M, path: Path, middleware: seq<M>,
                            inner: SubRoute<H, M, E> -> SubRoute<H, M, E>,
                            leaf: SubRoute<H, M, E> -> SubRoute<H, M, E>)
    requires forall r :: leaf(r) == Get(r, h)
    requires forall r :: inner(r) == With(r, mw2, leaf)
    ensures var r := inner(Ok(Child(path, middleware)));
      r.Ok? && Build(r.segment) == [RouteDescriptor(path, middleware + [mw2], Handler(Some(Http.Get), h))]
  {
    var inside := Child<H, M>(path, middleware + [mw2]);
    assert leaf(Ok(inside)) == Get(Ok(inside), h);
    GetChildBuild<H, M, E>(path, middleware + [mw2], h);
    assert Build(leaf(Ok(inside)).segment) == [RouteDescriptor(path, middleware + [mw2], Handler(Some(Http.Get), h))];
    WithChildBuild(path, middleware, mw2, leaf);
    assert inner(Ok(Child(path, middleware))) == With(Ok(Child(path, middleware)), mw2, leaf);
  }

  /** The middle closure of `MiddlewareScopeExample`,
      |r| r.at("subpath", inner).get(h2), on a child at `path` under
      `middleware`: the GET route of the child itself, then the inner route
      at "subpath" below it. */
  lemma MiddleScope<H, M, E>(h: H, h2: H, mw2: M, path: Path, middleware: seq<M>,
                             scoped: SubRoute<H, M, E> -> SubRoute<H, M, E>,
                             inner: SubRoute<H, M, E> -> SubRoute<H, M, E>,
                             leaf: SubRoute<H, M, E> -> SubRoute<H, M, E>)
    requires forall r :: leaf(r) == Get(r, h)
    requires forall r :: inner(r) == With(r, mw2, leaf)
    requires forall r :: scoped(r) == Get(At(r, "subpath", inner), h2)
    ensures var r := scoped(Ok(Child(path, middleware)));
      r.Ok? && Build(r.segment) == [
        RouteDescriptor(path, middleware, Handler(Some(Http.Get), h2)),
        RouteDescriptor(Append(path, "subpath"), middleware + [mw2], Handler(Some(Http.Get), h))]
  {
    var sub := Append(path, "subpath");
    InnerScope(h, mw2, sub, middleware, inner, leaf);
    var lower := inner(Ok(Child(sub, middleware)));
    var mid := At(Ok(Child<H, M>(path, middleware)), "subpath", inner);
    assert mid.segment.branches == [lower.segment];
    GetFirstBuild(mid, h2);
    assert BuildBranches([lower.segment]) == Build(lower.segment) + BuildBranches([]);
  }

  /** The outer closure of `MiddlewareScopeExample`,
      |r| r.with(mw1, scoped), on a child at `path` with no middleware. */
  lemma OuterScope<H, M, E>(h: H, h2: H, mw1: M, mw2: M, path: Path,
                            outer: SubRoute<H, M, E> -> SubRoute<H, M, E>,
                            scoped: SubRoute<H, M, E> -> SubRoute<H, M, E>,
                            inner: SubRoute<H, M, E> -> SubRoute<H, M, E>,
                            leaf: SubRoute<H, M, E> -> SubRoute<H, M, E>)
    requires forall r :: leaf(r) == Get(r, h)
    requires forall r :: inner(r) == With(r, mw2, leaf)
    requires forall r :: scoped(r) == Get(At(r, "subpath", inner), h2)
    requires forall r :: outer(r) == With(r, mw1, scoped)
    ensures var r := outer(Ok(Child(path, [])));
      r.Ok? && Build(r.segment) == [
        RouteDescriptor(path, [mw1], Handler(Some(Http.Get), h2)),
        RouteDescriptor(Append(path, "subpath"), [mw1, mw2], Handler(Some(Http.Get), h))]
  {
    assert [] + [mw1] == [mw1];
    MiddleScope(h, h2, mw2, path, [mw1], scoped, inner, leaf);
    assert [mw1] + [mw2] == [mw1, mw2];
    WithChildBuild(path, [], mw1, scoped);
    assert outer(Ok(Child(path, []))) == With(Ok(Child(path, [])), mw1, scoped);
  }

  /** Middleware is scoped: in
      root().at("path", |r| r.with(mw1, |r| r.at("subpath", |r| r.with(mw2, |r| r.get(h))).get(h2)))
      (`outer`, `scoped`, `inner` and `leaf` are its closures, outermost first)
      the route under "path" carries [mw1] and the one under "path/subpath"
      carries [mw1, mw2]. */
  lemma MiddlewareScopeExample<H, M, E>(h: H, h2: H, mw1: M, mw2: M,
                                        outer: SubRoute<H, M, E> -> SubRoute<H, M, E>,
                                        scoped: SubRoute<H, M, E> -> SubRoute<H, M, E>,
                                        inner: SubRoute<H, M, E> -> SubRoute<H, M, E>,
                                        leaf: SubRoute<H, M, E> -> SubRoute<H, M, E>)
    requires forall r :: leaf(r) == Get(r, h)
    requires forall r :: inner(r) == With(r, mw2, leaf)
    requires forall r :: scoped(r) == Get(At(r, "subpath", inner), h2)
    requires forall r :: outer(r) == With(r, mw1, scoped)
    ensures var tree := At(Root<H, M, E>(), "path", outer);
      && tree.Ok?
      && Build(tree.segment) == [
           RouteDescriptor(Path("/path"), [mw1], Handler(Some(Http.Get), h2)),
           RouteDescriptor(Path("/path/subpath"), [mw1, mw2], Handler(Some(Http.Get), h))]
  {
    ExamplePaths();
    OuterScope(h, h2, mw1, mw2, Path("/path"), outer, scoped, inner, leaf);
    var root := Root<H, M, E>();
    assert root == Ok(Child(Path("/"), []));
    AtChildBuild<H, M, E>(Path("/"), [], "path", outer);
  }
}

=== FILE: routesegment.dfy ===
/** The route tree (src/routesegment.rs). A `RouteSegment` is one node: the
    path and the middleware chain collected on the way down from the root, an
    optional name, its branches in the order they were added, and its
    endpoints keyed by HTTP method (`None` is the catch-all).

    The builder operations work on a `SubRoute`, the source's
    `Result<RouteSegment>`. Each takes the segment by value and returns the
    updated one, so they are functions here. A subtree is filled in by a
    caller-supplied closure, a function `SubRoute -> SubRoute` here, so the
    builder operations' contracts hold whatever that closure does;
    `AtKeepsScoped`, `WithKeepsScoped` and `ScopedBuild` ask for a closure
    whose result is `Scoped`. Handlers (`H`),
    middleware (`M`) and the crate's error type (`E`) are opaque. */
module RouteSegments {
  import opened Wrappers
  import Http
  import opened PathJoin
  import opened MapOrder
  import opened ReverseRouting

  /** An endpoint key: `Some(verb)`, or `None` for the catch-all. */
  type Key = Option<Http.Method>

  /** Every key, each once: the order in which the model emits a node's
      endpoints (the source's `HashMap` order is unspecified). It is the
      catch-all followed by `Some` of each verb of `Http.AllMethods`, written
      out as a literal so that the worked route trees unfold it directly;
      `AllKeysListed` ties it to `Http.AllMethods`. */
  const AllKeys: seq<Key> :=
    [None, Some(Http.Get), Some(Http.Head), Some(Http.Put), Some(Http.Post), Some(Http.Delete),
     Some(Http.Options), Some(Http.Connect), Some(Http.Patch), Some(Http.Trace)]

  lemma AllKeysListed()
    ensures Distinct(AllKeys)
    ensures forall k: Key :: k in AllKeys
  {
    forall k: Key ensures k in AllKeys {
      if k.Some? {
        Http.AllMethodsListed(k.value);
        var j :| 0 <= j < |Http.AllMethods| && Http.AllMethods[j] == k.value;
        assert AllKeys[j + 1] == k;
      }
    }
  }

  datatype RouteSegment<H, M> = RouteSegment(
    path: Path,
    middleware: seq<M>,
    name: Option<string>,
    branches: seq<RouteSegment<H, M>>,
    endpoints: map<Key, H>)

  /** `Result<RouteSegment>`. `NameConflict` stands for the panic of `name`
      on a segment that already has one ("route already has name"); like an
      error it ends the construction, and every operation passes it on
      unchanged. */
  datatype SubRoute<H, M, E> =
    | Ok(segment: RouteSegment<H, M>)
    | Err(error: E)
    | NameConflict(existing: string)

  /** What a descriptor leads to: a route name, or a handler for a method
      (`None`: any method). */
  datatype Route<H> = Named(name: string) | Handler(key: Key, endpoint: H)

  /** One flattened route: the full path, the full middleware chain and the
      leaf. */
  datatype RouteDescriptor<H, M> = RouteDescriptor(path: Path, middleware: seq<M>, route: Route<H>)

  /** A fresh segment as `at` and `with` hand it to their closure. */
  function Child<H, M>(path: Path, middleware: seq<M>): (c: RouteSegment<H, M>)
    ensures c.path == path && c.middleware == middleware
    ensures c.name == None && c.branches == [] && c.endpoints == map[]
  {
    RouteSegment(path, middleware, None, [], map[])
  }

  /** `root()`: a segment at path "/" with no middleware, no name, no
      branches and no endpoints. */
  function Root<H, M, E>(): (r: SubRoute<H, M, E>)
    ensures r.Ok? && r.segment.path == Prefix("/") && r.segment.middleware == []
    ensures r.segment.name == None && r.segment.branches == [] && r.segment.endpoints == map[]
  {
    Ok(Child(Prefix("/"), []))
  }

  /** `after` is `before` with `branch` added as its last branch and nothing
      else changed. */
  ghost predicate AddsBranch<H, M>(before: RouteSegment<H, M>, after: RouteSegment<H, M>, branch: RouteSegment<H, M>)
  {
    && after.path == before.path
    && after.middleware == before.middleware
    && after.name == before.name
    && after.endpoints == before.endpoints
    && after.branches == before.branches + [branch]
  }

  /** The one step shared by `at` and `with`: hand `child` to the closure and
      add what it returns as the last branch, or fail with what it returns. */
  function AddBranch<H, M, E>(segment: RouteSegment<H, M>, child: RouteSegment<H, M>,
                              routes: SubRoute<H, M, E> -> SubRoute<H, M, E>): (r: SubRoute<H, M, E>)
    ensures routes(Ok(child)).Ok? ==> r.Ok? && AddsBranch(segment, r.segment, routes(Ok(child)).segment)
    ensures !routes(Ok(child)).Ok? ==> r == routes(Ok(child))
  {
    var built := routes(Ok(child));
    if built.Ok? then Ok(segment.(branches := segment.branches + [built.segment])) else built
  }

  /** `at`: the closure fills a child whose path is this path joined with
      `path` and whose middleware is this middleware; the result becomes the
      last branch. A failure, here or from the closure, is the result. */
  function At<H, M, E>(self: SubRoute<H, M, E>, path: string,
                       routes: SubRoute<H, M, E> -> SubRoute<H, M, E>): (r: SubRoute<H, M, E>)
    ensures !self.Ok? ==> r == self
    ensures self.Ok? ==>
      var built := routes(Ok(Child(Append(self.segment.path, path), self.segment.middleware)));
      && (built.Ok? ==> r.Ok? && AddsBranch(self.segment, r.segment, built.segment))
      && (!built.Ok? ==> r == built)
  {
    match self
    case Ok(segment) => AddBranch(segment, Child(Append(segment.path, path), segment.middleware), routes)
    case _ => self
  }

  /** `with`: the closure fills a child at this same path whose middleware
      is this middleware followed by `middleware`; the result becomes the
      last branch. A failure, here or from the closure, is the result. */
  function With<H, M, E>(self: SubRoute<H, M, E>, middleware: M,
                         routes: SubRoute<H, M, E> -> SubRoute<H, M, E>): (r: SubRoute<H, M, E>)
    ensures !self.Ok? ==> r == self
    ensures self.Ok? ==>
      var built := routes(Ok(Child(self.segment.path, self.segment.middleware + [middleware])));
      && (built.Ok? ==> r.Ok? && AddsBranch(self.segment, r.segment, built.segment))
      && (!built.Ok? ==> r == built)
  {
    match self
    case Ok(segment) => AddBranch(segment, Child(segment.path, segment.middleware + [middleware]), routes)
    case _ => self
  }

  /** `r` is `self` with `endpoint` registered under `key`: the handler under
      `key` is `endpoint`, every other key keeps its handler (or its absence),
      and the rest of the segment is unchanged; a failure passes through. */
  ghost predicate Registers<H, M, E>(self: SubRoute<H, M, E>, r: SubRoute<H, M, E>, key: Key, endpoint: H)
  {
    && (!self.Ok? ==> r == self)
    && (self.Ok? ==>
          && r.Ok?
          && r.segment.path == self.segment.path
          && r.segment.middleware == self.segment.middleware
          && r.segment.name == self.segment.name
          && r.segment.branches == self.segment.branches
          && key in r.segment.endpoints && r.segment.endpoints[key] == endpoint
          && (forall k :: k != key ==> (k in r.segment.endpoints <==> k in self.segment.endpoints))
          && (forall k :: k != key && k in self.segment.endpoints ==>
                r.segment.endpoints[k] == self.segment.endpoints[k]))
  }

  /** `method`: registers `endpoint` for `method`, replacing an earlier one
      for the same method on this segment. */
  function Method<H, M, E>(self: SubRoute<H, M, E>, verb: Http.Method, endpoint: H): (r: SubRoute<H, M, E>)
    ensures Registers(self, r, Some(verb), endpoint)
  {
    match self
    case Ok(segment) => Ok(segment.(endpoints := segment.endpoints[Some(verb) := endpoint]))
    case _ => self
  }

  /** `all`: registers `endpoint` as the catch-all, replacing an earlier
      catch-all on this segment. */
  function All<H, M, E>(self: SubRoute<H, M, E>, endpoint: H): (r: SubRoute<H, M, E>)
    ensures Registers(self, r, None, endpoint)
  {
    match self
    case Ok(segment) => Ok(segment.(endpoints := segment.endpoints[None := endpoint]))
    case _ => self
  }

  /** `name`: names an unnamed segment; on a named one the source panics,
      which is `NameConflict` carrying the name already there. */
  function Name<H, M, E>(self: SubRoute<H, M, E>, name: string): (r: SubRoute<H, M, E>)
    ensures !self.Ok? ==> r == self
    ensures self.Ok? && self.segment.name.Some? ==> r == NameConflict(self.segment.name.value)
    ensures self.Ok? && self.segment.name.None? ==>
      && r.Ok? && r.segment.name == Some(name)
      && r.segment.path == self.segment.path
      && r.segment.middleware == self.segment.middleware
      && r.segment.branches == self.segment.branches
      && r.segment.endpoints == self.segment.endpoints
  {
    match self
    case Ok(segment) =>
      if segment.name.Some? then NameConflict(segment.name.value)
      else Ok(segment.(name := Some(name)))
    case _ => self
  }

  /** A second `method` for the same verb on the same segment replaces the
      first. */
  lemma MethodReplaces<H, M, E>(self: SubRoute<H, M, E>, verb: Http.Method, first: H, second: H)
    ensures Method(Method(self, verb, first), verb, second) == Method(self, verb, second)
  {
    if self.Ok? {
      var s := self.segment;
      assert s.endpoints[Some(verb) := first][Some(verb) := second] == s.endpoints[Some(verb) := second];
    }
  }

  /** Registering under a verb never touches the catch-all. */
  lemma VerbKeepsCatchAll<H, M, E>(self: SubRoute<H, M, E>, r: SubRoute<H, M, E>, verb: Http.Method, endpoint: H)
    requires self.Ok? && Registers(self, r, Some(verb), endpoint)
    ensures None in r.segment.endpoints <==> None in self.segment.endpoints
    ensures None in self.segment.endpoints ==> r.segment.endpoints[None] == self.segment.endpoints[None]
  {
  }

  /** A segment is named at most once: naming twice never yields a segment. */
  lemma NameAtMostOnce<H, M, E>(self: SubRoute<H, M, E>, first: string, second: string)
    ensures !Name(Name(self, first), second).Ok?
    ensures self.Ok? && self.segment.name.None? ==> Name(Name(self, first), second) == NameConflict(first)
  {
  }

  /** The descriptors of this segment's own endpoints: one per endpoint, each
      with this segment's path and middleware. */
  function Local<H, M>(s: RouteSegment<H, M>): (r: seq<RouteDescriptor<H, M>>)
    ensures |r| == |s.endpoints|
    ensures forall i :: 0 <= i < |r| ==>
      && r[i].path == s.path && r[i].middleware == s.middleware && r[i].route.Handler?
      && r[i].route.key in s.endpoints && r[i].route.endpoint == s.endpoints[r[i].route.key]
    ensures forall k :: k in s.endpoints ==> exists i :: 0 <= i < |r| && r[i].route.key == k
    ensures forall i, j :: 0 <= i < j < |r| ==> r[i].route.key != r[j].route.key
  {
    AllKeysListed();
    EntriesComplete(s.endpoints, AllKeys);
    var es := Entries(s.endpoints, AllKeys);
    var r := seq(|es|, i requires 0 <= i < |es| => RouteDescriptor(s.path, s.middleware, Handler(es[i].0, es[i].1)));
    assert forall k :: k in s.endpoints ==> k in KeysOf(es);
    assert forall i :: 0 <= i < |r| ==> r[i].route.key == KeysOf(es)[i];
    r
  }

  /** `build`: this segment's endpoints, then the flattened branches in the
      order they were added. */
  function Build<H, M>(s: RouteSegment<H, M>): (r: seq<RouteDescriptor<H, M>>)
    ensures forall i :: 0 <= i < |r| ==> r[i].route.Handler?
    decreases s
  {
    Local(s) + BuildBranches(s.branches)
  }

  /** The flattened branches, in order (the `flat_map` over branches). */
  function BuildBranches<H, M>(bs: seq<RouteSegment<H, M>>): (r: seq<RouteDescriptor<H, M>>)
    ensures forall i :: 0 <= i < |r| ==> r[i].route.Handler?
    decreases bs
  {
    if bs == [] then [] else Build(bs[0]) + BuildBranches(bs[1..])
  }

  /** The number of endpoints in a tree. */
  function EndpointCount<H, M>(s: RouteSegment<H, M>): nat
    decreases s
  {
    |s.endpoints| + EndpointCountAll(s.branches)
  }

  function EndpointCountAll<H, M>(bs: seq<RouteSegment<H, M>>): nat
    decreases bs
  {
    if bs == [] then 0 else EndpointCount(bs[0]) + EndpointCountAll(bs[1..])
  }

  /** `build` yields exactly one descriptor per endpoint in the tree. */
  lemma {:induction false} BuildLength<H, M>(s: RouteSegment<H, M>)
    ensures |Build(s)| == EndpointCount(s)
    decreases s
  {
    BuildBranchesLength(s.branches);
  }

  lemma {:induction false} BuildBranchesLength<H, M>(bs: seq<RouteSegment<H, M>>)
    ensures |BuildBranches(bs)| == EndpointCountAll(bs)
    decreases bs
  {
    if bs != [] {
      BuildLength(bs[0]);
      BuildBranchesLength(bs[1..]);
    }
  }

  /** Flattening a branch added last puts its descriptors last. */
  lemma {:induction false} BuildBranchesSnoc<H, M>(bs: seq<RouteSegment<H, M>>, b: RouteSegment<H, M>)
    ensures BuildBranches(bs + [b]) == BuildBranches(bs) + Build(b)
    decreases |bs|
  {
    if bs == [] {
      assert [] + [b] == [b];
      assert [b][1..] == [];
    } else {
      assert (bs + [b])[0] == bs[0];
      assert (bs + [b])[1..] == bs[1..] + [b];
      BuildBranchesSnoc(bs[1..], b);
    }
  }

  /** Adding a branch adds its flattened routes after all earlier ones, and
      leaves the earlier ones as they were. */
  lemma AddsBranchBuild<H, M>(before: RouteSegment<H, M>, after: RouteSegment<H, M>, branch: RouteSegment<H, M>)
    requires AddsBranch(before, after, branch)
    ensures Build(after) == Build(before) + Build(branch)
  {
    assert Local(after) == Local(before);
    BuildBranchesSnoc(before.branches, branch);
  }

  /** `at` on a segment: `build` of the result is `build` of the segment
      followed by `build` of what the closure returned. */
  lemma AtBuild<H, M, E>(self: SubRoute<H, M, E>, path: string, routes: SubRoute<H, M, E> -> SubRoute<H, M, E>)
    requires self.Ok? && At(self, path, routes).Ok?
    ensures var built := routes(Ok(Child(Append(self.segment.path, path), self.segment.middleware)));
      built.Ok? && Build(At(self, path, routes).segment) == Build(self.segment) + Build(built.segment)
  {
    var built := routes(Ok(Child(Append(self.segment.path, path), self.segment.middleware)));
    AddsBranchBuild(self.segment, At(self, path, routes).segment, built.segment);
  }

  /** `with` on a segment: `build` of the result is `build` of the segment
      followed by `build` of what the closure returned. */
  lemma WithBuild<H, M, E>(self: SubRoute<H, M, E>, middleware: M, routes: SubRoute<H, M, E> -> SubRoute<H, M, E>)
    requires self.Ok? && With(self, middleware, routes).Ok?
    ensures var built := routes(Ok(Child(self.segment.path, self.segment.middleware + [middleware])));
      built.Ok? && Build(With(self, middleware, routes).segment) == Build(self.segment) + Build(built.segment)
  {
    var built := routes(Ok(Child(self.segment.path, self.segment.middleware + [middleware])));
    AddsBranchBuild(self.segment, With(self, middleware, routes).segment, built.segment);
  }

  /** Registering an endpoint adds one route to `build`, or none when it
      replaces one for the same key. */
  lemma RegistersBuildLength<H, M, E>(self: SubRoute<H, M, E>, r: SubRoute<H, M, E>, key: Key, endpoint: H)
    requires self.Ok? && Registers(self, r, key, endpoint)
    ensures |Build(r.segment)| == |Build(self.segment)| + (if key in self.segment.endpoints then 0 else 1)
  {
    var before, after := self.segment.endpoints, r.segment.endpoints;
    RegistersKeys(self, r, key, endpoint);
    assert |after| == |before| + (if key in before then 0 else 1) by {
      if key in before {
        assert after.Keys == before.Keys;
      } else {
        assert after.Keys == before.Keys + {key};
      }
    }
    BuildLength(self.segment);
    BuildLength(r.segment);
  }

  /** The keys after registering are the keys before plus `key`. */
  lemma RegistersKeys<H, M, E>(self: SubRoute<H, M, E>, r: SubRoute<H, M, E>, key: Key, endpoint: H)
    requires self.Ok? && Registers(self, r, key, endpoint)
    ensures r.segment.endpoints.Keys == self.segment.endpoints.Keys + {key}
  {
  }

  /** Every branch's middleware chain extends its parent's, all the way
      down. `at` and `with` keep a tree `Scoped` when the closure builds on
      the child it is handed (`AtKeepsScoped`, `WithKeepsScoped`); a closure
      that discards that child can break it. */
  ghost predicate Scoped<H, M>(s: RouteSegment<H, M>)
    decreases s
  {
    forall i :: 0 <= i < |s.branches| ==>
      s.middleware <= s.branches[i].middleware && Scoped(s.branches[i])
  }

  /** In a scoped tree every route carries the root's middleware chain
      first. */
  lemma {:induction false} ScopedBuild<H, M>(s: RouteSegment<H, M>)
    requires Scoped(s)
    ensures forall i :: 0 <= i < |Build(s)| ==> s.middleware <= Build(s)[i].middleware
    decreases s
  {
    ScopedBuildBranches(s.branches, s.middleware);
  }

  lemma {:induction false} ScopedBuildBranches<H, M>(bs: seq<RouteSegment<H, M>>, outer: seq<M>)
    requires forall i :: 0 <= i < |bs| ==> outer <= bs[i].middleware && Scoped(bs[i])
    ensures forall i :: 0 <= i < |BuildBranches(bs)| ==> outer <= BuildBranches(bs)[i].middleware
    decreases bs
  {
    if bs != [] {
      ScopedBuild(bs[0]);
      ScopedBuildBranches(bs[1..], outer);
      var head, rest := Build(bs[0]), BuildBranches(bs[1..]);
      forall i | 0 <= i < |BuildBranches(bs)|
        ensures outer <= BuildBranches(bs)[i].middleware
      {
        if i < |head| {
          PrefixTransitive(outer, bs[0].middleware, head[i].middleware);
        } else {
          assert BuildBranches(bs)[i] == rest[i - |head|];
        }
      }
    }
  }

  lemma PrefixTransitive<T>(a: seq<T>, b: seq<T>, c: seq<T>)
    requires a <= b && b <= c
    ensures a <= c
  {
    assert a == b[..|a|];
    assert b == c[..|b|];
    assert c[..|b|][..|a|] == c[..|a|];
  }

  /** `with` keeps a scoped tree scoped when the closure's result is scoped
      and keeps the chain it was handed: what is built inside carries the new
      middleware, and the segment itself does not. */
  lemma WithKeepsScoped<H, M, E>(self: SubRoute<H, M, E>, middleware: M, routes: SubRoute<H, M, E> -> SubRoute<H, M, E>)
    requires self.Ok? && Scoped(self.segment)
    requires var built := routes(Ok(Child(self.segment.path, self.segment.middleware + [middleware])));
      built.Ok? && Scoped(built.segment) && self.segment.middleware + [middleware] <= built.segment.middleware
    ensures var r := With(self, middleware, routes);
      r.Ok? && Scoped(r.segment) && r.segment.middleware == self.segment.middleware
  {
    var built := routes(Ok(Child(self.segment.path, self.segment.middleware + [middleware])));
    var r := With(self, middleware, routes);
    PrefixTransitive(self.segment.middleware, self.segment.middleware + [middleware], built.segment.middleware);
    assert r.segment.branches == self.segment.branches + [built.segment];
  }

  /** `at` keeps a scoped tree scoped when the closure's result is scoped and
      keeps the chain it was handed. */
  lemma AtKeepsScoped<H, M, E>(self: SubRoute<H, M, E>, path: string, routes: SubRoute<H, M, E> -> SubRoute<H, M, E>)
    requires self.Ok? && Scoped(self.segment)
    requires var built := routes(Ok(Child(Append(self.segment.path, path), self.segment.middleware)));
      built.Ok? && Scoped(built.segment) && self.segment.middleware <= built.segment.middleware
    ensures var r := At(self, path, routes);
      r.Ok? && Scoped(r.segment) && r.segment.middleware == self.segment.middleware
  {
    var built := routes(Ok(Child(Append(self.segment.path, path), self.segment.middleware)));
    var r := At(self, path, routes);
    assert r.segment.branches == self.segment.branches + [built.segment];
  }

  /** `names`: a name descriptor, with no middleware, for every named segment,
      in pre-order (this segment first, then its branches in order). */
  function Names<H, M>(s: RouteSegment<H, M>): (r: seq<RouteDescriptor<H, M>>)
    ensures forall i :: 0 <= i < |r| ==> r[i].middleware == [] && r[i].route.Named?
    ensures s.name.Some? ==> r != [] && r[0] == RouteDescriptor(s.path, [], Named(s.name.value))
    decreases s
  {
    var own := if s.name.Some? then [RouteDescriptor(s.path, [], Named(s.name.value))] else [];
    own + NamesOf(s.branches)
  }

  function NamesOf<H, M>(bs: seq<RouteSegment<H, M>>): (r: seq<RouteDescriptor<H, M>>)
    ensures forall i :: 0 <= i < |r| ==> r[i].middleware == [] && r[i].route.Named?
    decreases bs
  {
    if bs == [] then [] else Names(bs[0]) + NamesOf(bs[1..])
  }

  /** The number of named segments in a tree. */
  function NamedCount<H, M>(s: RouteSegment<H, M>): nat
    decreases s
  {
    (if s.name.Some? then 1 else 0) + NamedCountAll(s.branches)
  }

  function NamedCountAll<H, M>(bs: seq<RouteSegment<H, M>>): nat
    decreases bs
  {
    if bs == [] then 0 else NamedCount(bs[0]) + NamedCountAll(bs[1..])
  }

  /** `names` yields exactly one entry per named segment. */
  lemma {:induction false} NamesLength<H, M>(s: RouteSegment<H, M>)
    ensures |Names(s)| == NamedCount(s)
    decreases s
  {
    NamesOfLength(s.branches);
  }

  lemma {:induction false} NamesOfLength<H, M>(bs: seq<RouteSegment<H, M>>)
    ensures |NamesOf(bs)| == NamedCountAll(bs)
    decreases bs
  {
    if bs != [] {
      NamesLength(bs[0]);
      NamesOfLength(bs[1..]);
    }
  }

  /** Whether a descriptor names `n`. */
  predicate IsNamed<H, M>(d: RouteDescriptor<H, M>, n: string)
  {
    d.route.Named? && d.route.name == n
  }

  /** The table the reverse router ends up with after inserting every name
      descriptor of `ds` in order: a later name overwrites an earlier one. */
  function NameIndex<H, M>(ds: seq<RouteDescriptor<H, M>>): (r: map<string, string>)
    ensures forall n :: n in r ==> exists i :: 0 <= i < |ds| && IsNamed(ds[i], n) && ds[i].path.s == r[n]
    decreases |ds|
  {
    if ds == [] then map[]
    else
      var front := ds[..|ds| - 1];
      var m, d := NameIndex(front), ds[|ds| - 1];
      assert forall i :: 0 <= i < |front| ==> front[i] == ds[i];
      if d.route.Named? then m[d.route.name := ToString(d.path)] else m
  }

  /** A name is in the table exactly when some descriptor names it. */
  lemma {:induction false} NameIndexHas<H, M>(ds: seq<RouteDescriptor<H, M>>, n: string)
    ensures n in NameIndex(ds) <==> exists i :: 0 <= i < |ds| && IsNamed(ds[i], n)
    decreases |ds|
  {
    if ds != [] {
      var front := ds[..|ds| - 1];
      NameIndexHas(front, n);
      if n in NameIndex(ds) && !IsNamed(ds[|ds| - 1], n) {
        var i :| 0 <= i < |front| && IsNamed(front[i], n);
        assert ds[i] == front[i];
      }
      if (exists i :: 0 <= i < |ds| && IsNamed(ds[i], n)) && !IsNamed(ds[|ds| - 1], n) {
        var i :| 0 <= i < |ds| && IsNamed(ds[i], n);
        assert front[i] == ds[i];
      }
    }
  }

  /** The table maps a name to the path of the LAST descriptor naming it. */
  lemma {:induction false} NameIndexLast<H, M>(ds: seq<RouteDescriptor<H, M>>, n: string, i: nat)
    requires i < |ds| && IsNamed(ds[i], n)
    requires forall j :: i < j < |ds| ==> !IsNamed(ds[j], n)
    ensures n in NameIndex(ds) && NameIndex(ds)[n] == ds[i].path.s
    decreases |ds|
  {
    if i < |ds| - 1 {
      var front := ds[..|ds| - 1];
      assert front[i] == ds[i];
      forall j | i < j < |front| ensures !IsNamed(front[j], n) {
        assert front[j] == ds[j];
      }
      NameIndexLast(front, n, i);
    }
  }

  /** `reverse_router`: a reverse router holding, for each name in the tree,
      the path of the last segment with that name in pre-order. */
  method ReverseRouterOf<H, M>(s: RouteSegment<H, M>) returns (router: ReverseRouter)
    ensures fresh(router)
    ensures router.routes == NameIndex(Names(s))
  {
    router := new ReverseRouter();
    var names := Names(s);
    var i := 0;
    while i < |names|
      invariant 0 <= i <= |names|
      invariant router.routes == NameIndex(names[..i])
    {
      var d := names[i];
      assert names[..i + 1][..i] == names[..i];
      if d.route.Named? {
        router.Insert(d.route.name, ToString(d.path));
      }
      i := i + 1;
    }
    assert names[..|names|] == names;
  }

  /** A segment whose name occurs nowhere below it resolves to its own path. */
  lemma ResolveOwnName<H, M>(s: RouteSegment<H, M>)
    requires s.name.Some?
    requires forall j :: 0 <= j < |NamesOf(s.branches)| ==> !IsNamed(NamesOf(s.branches)[j], s.name.value)
    ensures s.name.value in NameIndex(Names(s)) && NameIndex(Names(s))[s.name.value] == s.path.s
  {
    var ds := Names(s);
    forall j | 0 < j < |ds| ensures !IsNamed(ds[j], s.name.value) {
      assert ds[j] == NamesOf(s.branches)[j - 1];
    }
    NameIndexLast(ds, s.name.value, 0);
  }
}

=== FILE: wrappers.dfy ===
/** The optional value of Rust's `Option`, used for a segment's name and for
    the endpoint key "HTTP method or catch-all". */
module Wrappers {

  datatype Option<+T> = None | Some(value: T)
}
